=== FILE: README.md ===
# EMPI links and ValueSet request shaping, in Dafny

This project models two pieces of the HAPI FHIR JPA server.

The first is the **EMPI link store**, `EmpiLinkDaoSvc`. An EMPI link records that a
*person* resource and a *target* resource (a patient, or another person) belong together
with some confidence. Each link carries a match result (`NO_MATCH`, `POSSIBLE_MATCH`,
`POSSIBLE_DUPLICATE`, `MATCH`) and a link source (`AUTO` or `MANUAL`). The store is a
table of links keyed by the ordered pair (person pid, target pid). The model covers every
operation of the service:

- keyed lookup and get-or-create;
- the query-by-example finders;
- `save`, which stamps `created` and `updated`;
- `createOrUpdateLinkEntity`;
- single delete, and the purge of every link that names a pid.

On top of the store sits the **link service** that `EmpiLinkSvcTest` exercises.
`updateLink` follows a precedence policy (NO_MATCH suppresses an automatic
POSSIBLE_DUPLICATE; the system may not assert NO_MATCH itself; the system may not touch a
link a human made). Sync then projects a person's links onto the person's own `link` list.

The second is the **ValueSet DAO for DSTU3**, `FhirResourceDaoValueSetDstu3`. It checks
and shapes an expansion request before the terminology service sees it:

- include/exclude validation;
- the compose that expand-by-identifier builds;
- the display filter injected into concept-free includes;
- the empty-compose check.

It then prunes the expansion tree by display and decrements its total. It also answers
`$validate-code`:

- the argument rules;
- how the value set is found;
- the depth-first search of the expansion;
- the display check.

Layout, one module per file:

| file | module | contents |
|---|---|---|
| `common.dfy` | `Common` | `Option`, `Result`, `Outcome`; blank strings; ASCII case-insensitive contains |
| `empi_link.dfy` | `EmpiLinkModel` | the link entity, the keyed store, example matching |
| `empi_link_dao.dfy` | `EmpiLinkDao` | the operations of `EmpiLinkDaoSvc` |
| `empi_link_svc.dfy` | `EmpiLinkSvc` | the `updateLink` policy, the sync projection, the test scenarios |
| `valueset_model.dfy` | `ValueSetModel` | compose, expansion tree, codings, HAPI emptiness |
| `valueset_filter.dfy` | `ValueSetFilter` | `applyFilter` and its reference definition |
| `valueset_compose.dfy` | `ValueSetCompose` | include validation, expand-by-identifier, `expand` |
| `valueset_validate.dfy` | `ValueSetValidate` | `$validate-code` |

Everything is a pure function of immutable values, except `ApplyFilter`. That one is a
method with the source's index loop, proved equal to a recursive reference definition.
The following are parameters of the model:

- **Pid resolution:** `IdMap`, a partial map from resource to pid.
- **The clock:** a `nat`.
- **The transaction context:** a log of messages.
- **Versionless references of targets:** `refOf`.
- **The terminology services:** the `Services` record and the `Engine` function.

Two modelling choices for the link service, whose implementation is not part of this model:

- **The person's link list.** Sync shows the person's MATCH and POSSIBLE_MATCH links
  (`EmpiLinkSvc.Projected`). `testCreateRemoveLink` expects a POSSIBLE_MATCH link to show
  and a later NO_MATCH on the same pair to hide it; `testSyncDoesNotSyncNoMatchLinks`
  expects a MATCH link to show and a NO_MATCH link not to. No test decides
  POSSIBLE_DUPLICATE; the model does not show it.
- **Manual links.** `testManualEmpiLinksCannotBeModifiedBySystem` creates a NO_MATCH MANUAL
  link and expects a later MATCH AUTO request on the pair to fail with the manual-link
  error. The model extrapolates this to every automatic request over a manual link,
  except an automatic NO_MATCH (refused with its own message) and a POSSIBLE_DUPLICATE
  that a NO_MATCH link suppresses.

## Model

| member | source | states |
|---|---|---|
| `EmpiLinkDao.FindEmpiLinkByExample` | hapi-fhir-jpaserver-base/src/main/java/ca/uhn/fhir/jpa/dao/EmpiLinkDaoSvc.java:194-196 | only stored links are found, and a probe that sets no field finds every stored link |
| `EmpiLinkDao.MoreSpecificExampleFindsFewer` | hapi-fhir-jpaserver-base/src/main/java/ca/uhn/fhir/jpa/dao/EmpiLinkDaoSvc.java:194-196 | a probe that agrees with every field another probe sets finds a subset of what that probe finds |
| `EmpiLinkDao.FindOne` | hapi-fhir-jpaserver-base/src/main/java/ca/uhn/fhir/jpa/dao/EmpiLinkDaoSvc.java:85-95 | empty exactly when no stored link matches; an error exactly when two or more stored links match; a single match is returned |
| `EmpiLinkDao.GetLinkByPersonPidAndTargetPid` | hapi-fhir-jpaserver-base/src/main/java/ca/uhn/fhir/jpa/dao/EmpiLinkDaoSvc.java:85-95 | a null pid gives empty; a found link carries both requested pids; empty means the pair has no row |
| `EmpiLinkDao.PairLookupAgreesWithExample` | hapi-fhir-jpaserver-base/src/main/java/ca/uhn/fhir/jpa/dao/EmpiLinkDaoSvc.java:85-95 | the keyed lookup equals the example query on the pair, which can never see two rows |
| `EmpiLinkDao.GetOrCreateEmpiLinkByPersonPidAndTargetPid` | hapi-fhir-jpaserver-base/src/main/java/ca/uhn/fhir/jpa/dao/EmpiLinkDaoSvc.java:72-83 | the stored link of the pair if there is one, otherwise a fresh link with the two pids and nothing else set |
| `EmpiLinkDao.Save` | hapi-fhir-jpaserver-base/src/main/java/ca/uhn/fhir/jpa/dao/EmpiLinkDaoSvc.java:186-192 | `created` is set once and kept afterwards, `updated` is always now, other fields are untouched, only the link's own row changes |
| `EmpiLinkDao.CreateOrUpdateLinkEntity` | hapi-fhir-jpaserver-base/src/main/java/ca/uhn/fhir/jpa/dao/EmpiLinkDaoSvc.java:55-69 | the pair's row ends with the given result and source; an existing row is updated in place (count unchanged, creation time kept), a missing one added (count + 1); no other row changes; one message is logged |
| `EmpiLinkDao.RepeatedCreateOrUpdateAddsAtMostOne` | hapi-fhir-jpaserver-base/src/main/java/ca/uhn/fhir/jpa/dao/EmpiLinkDaoSvc.java:55-83 | any run of create-or-update calls on one pair adds at most one row, and none if the pair was already linked |
| `EmpiLinkDao.DeleteLink` | hapi-fhir-jpaserver-base/src/main/java/ca/uhn/fhir/jpa/dao/EmpiLinkDaoSvc.java:157-160 | the link's row is gone, the count drops by one if it was there, every other row is kept |
| `EmpiLinkDao.DeleteWithAnyReferenceTo` | hapi-fhir-jpaserver-base/src/main/java/ca/uhn/fhir/jpa/dao/EmpiLinkDaoSvc.java:162-174 | an unresolvable resource fails; otherwise no remaining row names the pid, rows not naming it are kept, and the returned count plus the remaining rows equals the old count |
| `EmpiLinkDao.FindEmpiLinksByPersonId` | hapi-fhir-jpaserver-base/src/main/java/ca/uhn/fhir/jpa/dao/EmpiLinkDaoSvc.java:176-184 | exactly the stored links of the resolved person; none when the resource does not resolve |
| `EmpiLinkDao.FindEmpiLinksByTarget` | hapi-fhir-jpaserver-base/src/main/java/ca/uhn/fhir/jpa/dao/EmpiLinkDaoSvc.java:198-206 | exactly the stored links to the resolved target; none when the resource does not resolve |
| `EmpiLinkDao.FindEmpiLinkByTarget` | hapi-fhir-jpaserver-base/src/main/java/ca/uhn/fhir/jpa/dao/EmpiLinkDaoSvc.java:147-155 | an unresolvable target gives empty; otherwise empty exactly when no stored link points at the target, an error exactly when several do, and the one link when exactly one does |
| `EmpiLinkDao.GetEmpiLinksByTargetPidAndMatchResult` | hapi-fhir-jpaserver-base/src/main/java/ca/uhn/fhir/jpa/dao/EmpiLinkDaoSvc.java:97-103 | exactly the stored links with that target and result, a null argument constraining nothing |
| `EmpiLinkDao.GetMatchedLinkForTargetPid` | hapi-fhir-jpaserver-base/src/main/java/ca/uhn/fhir/jpa/dao/EmpiLinkDaoSvc.java:105-111 | a returned link is a stored MATCH link to the target; empty exactly when there is none; an error exactly when there are several; the one link when exactly one |
| `EmpiLinkDao.GetMatchedLinkForTarget` | hapi-fhir-jpaserver-base/src/main/java/ca/uhn/fhir/jpa/dao/EmpiLinkDaoSvc.java:113-124 | an unresolvable resource has no match; otherwise empty exactly when no stored MATCH link points at its pid, an error exactly when several do, and the one link when exactly one does |
| `EmpiLinkDao.GetEmpiLinksByPersonPidTargetPidAndMatchResult` | hapi-fhir-jpaserver-base/src/main/java/ca/uhn/fhir/jpa/dao/EmpiLinkDaoSvc.java:126-133 | a returned link is stored and agrees with every argument given; empty exactly when no stored link agrees with them all; an error exactly when two or more do |
| `EmpiLinkDao.PairAndResultLookupIsExact` | hapi-fhir-jpaserver-base/src/main/java/ca/uhn/fhir/jpa/dao/EmpiLinkDaoSvc.java:126-133 | with both pids given the query never fails and finds a link exactly when the pair's row has that result |
| `EmpiLinkDao.PairOnlyMatchesItsKey` | hapi-fhir-jpaserver-base/src/main/java/ca/uhn/fhir/jpa/dao/EmpiLinkDaoSvc.java:85-95 | a probe fixing both pids matches at most the row of that pair |
| `EmpiLinkDao.GetPossibleDuplicates` | hapi-fhir-jpaserver-base/src/main/java/ca/uhn/fhir/jpa/dao/EmpiLinkDaoSvc.java:135-145 | exactly the stored links classified POSSIBLE_DUPLICATE |
| `EmpiLinkSvc.Decide` | hapi-fhir-jpaserver-empi/src/test/java/ca/uhn/fhir/jpa/empi/svc/EmpiLinkSvcTest.java:77-148 | the full case table: manual requests always apply; an automatic request is suppressed exactly when it is a POSSIBLE_DUPLICATE and a NO_MATCH link joins the two either way round; refused as automatic NO_MATCH exactly when it is a NO_MATCH; refused as touching a manual link exactly when otherwise unsuppressed over a manual link; applied in every other case |
| `EmpiLinkSvc.Projection` | hapi-fhir-jpaserver-empi/src/test/java/ca/uhn/fhir/jpa/empi/svc/EmpiLinkSvcTest.java:150-162 | the person's link list holds exactly the targets of its MATCH and POSSIBLE_MATCH links |
| `EmpiLinkSvc.SyncEmpiLinksToPersonLinks` | hapi-fhir-jpaserver-empi/src/test/java/ca/uhn/fhir/jpa/empi/svc/EmpiLinkSvcTest.java:150-162 | the person's list becomes its projection; the table and every other person are untouched |
| `EmpiLinkSvc.UpdateLink` | hapi-fhir-jpaserver-empi/src/test/java/ca/uhn/fhir/jpa/empi/svc/EmpiLinkSvcTest.java:43-148 | unresolvable resources fail; a suppressed request returns the state unchanged and a refused one the refusal's message; an applied request without a context fails, and with one it always succeeds, leaving the pair's row with the requested result and source, no other row changed, the person's list equal to its projection and every other person's list untouched; only automatic requests are refused |
| `EmpiLinkSvc.AutomaticNoMatchIsRejected` | hapi-fhir-jpaserver-empi/src/test/java/ca/uhn/fhir/jpa/empi/svc/EmpiLinkSvcTest.java:136-148 | an automatic NO_MATCH always fails with "EMPI system is not allowed to automatically NO_MATCH a resource" |
| `EmpiLinkSvc.ManualUpdateAlwaysApplies` | hapi-fhir-jpaserver-empi/src/test/java/ca/uhn/fhir/jpa/empi/svc/EmpiLinkSvcTest.java:43-64 | a manual request always succeeds and leaves the pair with that result and MANUAL |
| `EmpiLinkSvc.ManualLinksAreProtected` | hapi-fhir-jpaserver-empi/src/test/java/ca/uhn/fhir/jpa/empi/svc/EmpiLinkSvcTest.java:122-134 | over a manual link an automatic request fails or changes nothing; unless it is a NO_MATCH or a suppressed POSSIBLE_DUPLICATE it fails with "EMPI system is not allowed to modify links on manually created links" |
| `EmpiLinkSvc.NoMatchBlocksPossibleDuplicate` | hapi-fhir-jpaserver-empi/src/test/java/ca/uhn/fhir/jpa/empi/svc/EmpiLinkSvcTest.java:77-111 | with a NO_MATCH link either way round, an automatic POSSIBLE_DUPLICATE returns without error and leaves the table as it was |
| `EmpiLinkSvc.FirstPossibleDuplicateCreatesOneLink` | hapi-fhir-jpaserver-empi/src/test/java/ca/uhn/fhir/jpa/empi/svc/EmpiLinkSvcTest.java:67-75 | on an empty table an automatic POSSIBLE_DUPLICATE creates exactly one link with that result |
| `EmpiLinkSvc.ManualNoMatchOverridesInPlace` | hapi-fhir-jpaserver-empi/src/test/java/ca/uhn/fhir/jpa/empi/svc/EmpiLinkSvcTest.java:43-64 | automatic POSSIBLE_MATCH then manual NO_MATCH on one pair: one row throughout; the person shows one link, then none |
| `EmpiLinkSvc.SyncDoesNotSyncNoMatchLinks` | hapi-fhir-jpaserver-empi/src/test/java/ca/uhn/fhir/jpa/empi/svc/EmpiLinkSvcTest.java:150-162 | with a MATCH link to one patient and a NO_MATCH link to another, sync shows exactly the first patient |
| `EmpiLinkSvc.ProjectionReadsOnlyOwnRows` | hapi-fhir-jpaserver-empi/src/test/java/ca/uhn/fhir/jpa/empi/svc/EmpiLinkSvcTest.java:150-162 | a person's projection depends only on the rows of that person |
| `EmpiLinkSvc.UpdateLinkKeepsProjectionConsistent` | hapi-fhir-jpaserver-empi/src/test/java/ca/uhn/fhir/jpa/empi/svc/EmpiLinkSvcTest.java:43-64 | if every person's list agreed with the table before an update, it agrees after it |
| `EmpiLinkSvc.PairShownExactlyWhenProjected` | hapi-fhir-jpaserver-empi/src/test/java/ca/uhn/fhir/jpa/empi/svc/EmpiLinkSvcTest.java:43-64 | a person shows the target of its link exactly when that link is MATCH or POSSIBLE_MATCH |
| `EmpiLinkSvc.ProjectionFollowsResult` | hapi-fhir-jpaserver-empi/src/test/java/ca/uhn/fhir/jpa/empi/svc/EmpiLinkSvcTest.java:52-63 | after an applied request the person shows the target exactly when the new result is MATCH or POSSIBLE_MATCH |
| `ValueSetCompose.ValidateIncludes` | hapi-fhir-jpaserver-base/src/main/java/ca/uhn/fhir/jpa/dao/dstu3/FhirResourceDaoValueSetDstu3.java:121-127 | fails exactly when some concept set has a blank system and a non-empty concept or filter list, with the message naming the list |
| `ValueSetCompose.DoExpand` | hapi-fhir-jpaserver-base/src/main/java/ca/uhn/fhir/jpa/dao/dstu3/FhirResourceDaoValueSetDstu3.java:99-119 | include errors come before exclude errors; the expansion is returned exactly when both lists pass and the engine answers; an engine failure is an internal error |
| `ValueSetCompose.BuildIdentifierValueSet` | hapi-fhir-jpaserver-base/src/main/java/ca/uhn/fhir/jpa/dao/dstu3/FhirResourceDaoValueSetDstu3.java:130-146 | a blank URI is refused; otherwise the first include imports the URI, and a second include with the display filter is present exactly when the filter is not blank |
| `ValueSetCompose.ExpandByIdentifier` | hapi-fhir-jpaserver-base/src/main/java/ca/uhn/fhir/jpa/dao/dstu3/FhirResourceDaoValueSetDstu3.java:129-185 | a blank URI is refused; without a filter the result is the expansion of the import-only compose |
| `ValueSetCompose.ExpandByIdentifierRejectsEveryFilter` | hapi-fhir-jpaserver-base/src/main/java/ca/uhn/fhir/jpa/dao/dstu3/FhirResourceDaoValueSetDstu3.java:140-148 | with any non-blank filter, expand-by-identifier as written always fails the include validation |
| `ValueSetCompose.ExpandByIdentifierFiltered` | hapi-fhir-jpaserver-base/src/main/java/ca/uhn/fhir/jpa/dao/dstu3/FhirResourceDaoValueSetDstu3.java:129-149 | succeeds exactly when the imported value set expands; with a filter every surviving entry matches it; without one it agrees with the code as written |
| `ValueSetCompose.AddFilterIfPresent` | hapi-fhir-jpaserver-base/src/main/java/ca/uhn/fhir/jpa/dao/dstu3/FhirResourceDaoValueSetDstu3.java:258-264 | only the filter list can change, and it grows by at most one; the include ends empty exactly when it was empty and the filter is blank; it lacks a system afterwards exactly when it did before or it is system-less and concept-free and the filter is not blank |
| `ValueSetCompose.ExpandRequest` | hapi-fhir-jpaserver-base/src/main/java/ca/uhn/fhir/jpa/dao/dstu3/FhirResourceDaoValueSetDstu3.java:187-206 | one include per source include, and the source's excludes; include i is empty exactly when source include i is and the filter is blank, and lacks a system exactly when source include i does or is system-less and concept-free with a non-blank filter |
| `ValueSetCompose.Expand` | hapi-fhir-jpaserver-base/src/main/java/ca/uhn/fhir/jpa/dao/dstu3/FhirResourceDaoValueSetDstu3.java:187-241 | no includes, or only empty ones, is refused as an empty compose; otherwise the call succeeds exactly when `doExpand` of the request does; a failure of `doExpand` is passed on unchanged; a filtered success is the engine's expansion pruned by display, an unfiltered one is the engine's expansion |
| `ValueSetCompose.ExpandFilterOnImportOnlyIncludeFails` | hapi-fhir-jpaserver-base/src/main/java/ca/uhn/fhir/jpa/dao/dstu3/FhirResourceDaoValueSetDstu3.java:193-206 | a filter given with an import-only include makes that include fail the include validation |
| `ValueSetCompose.AddFilterIfPresentWithSystem` | hapi-fhir-jpaserver-base/src/main/java/ca/uhn/fhir/jpa/dao/dstu3/FhirResourceDaoValueSetDstu3.java:258-264 | corrected injection: only the filter list can change; emptiness and lacking a system are exactly as before |
| `ValueSetCompose.ExpandRequestWithSystemFilter` | hapi-fhir-jpaserver-base/src/main/java/ca/uhn/fhir/jpa/dao/dstu3/FhirResourceDaoValueSetDstu3.java:187-206 | corrected request: include i is empty, or lacks a system, exactly when source include i does |
| `ValueSetCompose.ExpandFiltered` | hapi-fhir-jpaserver-base/src/main/java/ca/uhn/fhir/jpa/dao/dstu3/FhirResourceDaoValueSetDstu3.java:187-241 | corrected `expand`: refused as empty exactly when every source include is empty; a source include without a system is refused; when some source include is non-empty and every include and exclude names a system, it succeeds exactly when the engine expands the request and otherwise passes on the engine's error; a filtered success is the engine's expansion pruned by display |
| `ValueSetCompose.ExpandFilteredOnImportOnlyInclude` | hapi-fhir-jpaserver-base/src/main/java/ca/uhn/fhir/jpa/dao/dstu3/FhirResourceDaoValueSetDstu3.java:193-206 | with the correction, a filter on an include importing a named value set succeeds exactly when the engine expands the request, and every surviving entry matches |
| `Common.AllWhitespaceIsEveryCharacter` | hapi-fhir-jpaserver-base/src/main/java/ca/uhn/fhir/jpa/dao/dstu3/FhirResourceDaoValueSetDstu3.java:247 | a display is blank exactly when every one of its characters is whitespace, the empty display included |
| `Common.ContainsIgnoreCaseIsSomeRegion` | hapi-fhir-jpaserver-base/src/main/java/ca/uhn/fhir/jpa/dao/dstu3/FhirResourceDaoValueSetDstu3.java:247 | a display contains the filter, ignoring case, exactly when the filter matches, letter by letter and ignoring case, at some offset of the display |
| `ValueSetFilter.ApplyFilter` | hapi-fhir-jpaserver-base/src/main/java/ca/uhn/fhir/jpa/dao/dstu3/FhirResourceDaoValueSetDstu3.java:243-256 | the index loop leaves exactly the recursive pruning of the tree, and the total reduced by every entry removed at any depth, null staying null |
| `ValueSetFilter.FilterExpansion` | hapi-fhir-jpaserver-base/src/main/java/ca/uhn/fhir/jpa/dao/dstu3/FhirResourceDaoValueSetDstu3.java:243-256 | every surviving entry at every level has a non-blank display containing the filter; the total drops by the number of failing entries in the whole tree |
| `ValueSetFilter.PruneSurvivorsMatch` | hapi-fhir-jpaserver-base/src/main/java/ca/uhn/fhir/jpa/dao/dstu3/FhirResourceDaoValueSetDstu3.java:245-254 | every entry left at every level matches the filter |
| `ValueSetFilter.PruneOfMatchingIsIdentity` | hapi-fhir-jpaserver-base/src/main/java/ca/uhn/fhir/jpa/dao/dstu3/FhirResourceDaoValueSetDstu3.java:245-254 | a tree that already matches everywhere is left alone and the total is not touched |
| `ValueSetFilter.FilterIsIdempotent` | hapi-fhir-jpaserver-base/src/main/java/ca/uhn/fhir/jpa/dao/dstu3/FhirResourceDaoValueSetDstu3.java:243-256 | filtering twice by the same text is filtering once |
| `ValueSetFilter.PruneKeepsOrder` | hapi-fhir-jpaserver-base/src/main/java/ca/uhn/fhir/jpa/dao/dstu3/FhirResourceDaoValueSetDstu3.java:245-254 | survivors keep their relative order |
| `ValueSetFilter.PruneKeepsEveryMatch` | hapi-fhir-jpaserver-base/src/main/java/ca/uhn/fhir/jpa/dao/dstu3/FhirResourceDaoValueSetDstu3.java:245-254 | every top-level entry that matches survives, with its children pruned |
| `ValueSetFilter.RemovedCountsEveryRejectedEntry` | hapi-fhir-jpaserver-base/src/main/java/ca/uhn/fhir/jpa/dao/dstu3/FhirResourceDaoValueSetDstu3.java:247-254 | the decrements equal the failing entries of the whole tree, those under removed entries included |
| `ValueSetFilter.SurvivorsAndRemovedBoundedBySize` | hapi-fhir-jpaserver-base/src/main/java/ca/uhn/fhir/jpa/dao/dstu3/FhirResourceDaoValueSetDstu3.java:245-254 | survivors plus decrements never exceed the entries of the tree |
| `ValueSetFilter.NestedSurvivorIsDroppedUncounted` | hapi-fhir-jpaserver-base/src/main/java/ca/uhn/fhir/jpa/dao/dstu3/FhirResourceDaoValueSetDstu3.java:245-254 | a matching child of a failing parent disappears with it without a decrement |
| `ValueSetValidate.CheckArguments` | hapi-fhir-jpaserver-base/src/main/java/ca/uhn/fhir/jpa/dao/dstu3/FhirResourceDaoValueSetDstu3.java:273-282 | passes exactly when one of code, coding and codeable concept is given; none and several have their own messages |
| `ValueSetValidate.QueryOf` | hapi-fhir-jpaserver-base/src/main/java/ca/uhn/fhir/jpa/dao/dstu3/FhirResourceDaoValueSetDstu3.java:350-364 | code mode exactly when the code is not blank, comparing that code and the supplied system; coding mode only with a coding, comparing it; concept mode only without one, comparing the concept's codings |
| `ValueSetValidate.Lookup` | hapi-fhir-jpaserver-base/src/main/java/ca/uhn/fhir/jpa/dao/dstu3/FhirResourceDaoValueSetDstu3.java:339-369 | a found node answers the query |
| `ValueSetValidate.ValidateCodeIsInContains` | hapi-fhir-jpaserver-base/src/main/java/ca/uhn/fhir/jpa/dao/dstu3/FhirResourceDaoValueSetDstu3.java:339-369 | null exactly when no node of the tree, listed children before parents, answers the query; otherwise valid, "Validation succeeded", with the display of the first answering node in that listing |
| `ValueSetValidate.LookupIsFirstPostOrderMatch` | hapi-fhir-jpaserver-base/src/main/java/ca/uhn/fhir/jpa/dao/dstu3/FhirResourceDaoValueSetDstu3.java:341-346 | the search returns the first answering node of the post-order listing (children before their parent) |
| `ValueSetValidate.FirstMatchIsFirst` | hapi-fhir-jpaserver-base/src/main/java/ca/uhn/fhir/jpa/dao/dstu3/FhirResourceDaoValueSetDstu3.java:341-368 | the first match answers the query and nothing before it does; there is none exactly when nothing answers |
| `ValueSetValidate.LookupFindsFirstMatch` | hapi-fhir-jpaserver-base/src/main/java/ca/uhn/fhir/jpa/dao/dstu3/FhirResourceDaoValueSetDstu3.java:339-369 | no hit exactly when no node of the tree answers; otherwise the hit is the first answering node in post-order |
| `ValueSetValidate.ChildIsFoundBeforeParent` | hapi-fhir-jpaserver-base/src/main/java/ca/uhn/fhir/jpa/dao/dstu3/FhirResourceDaoValueSetDstu3.java:341-346 | an answering child wins over its answering parent |
| `ValueSetValidate.CheckDisplay` | hapi-fhir-jpaserver-base/src/main/java/ca/uhn/fhir/jpa/dao/dstu3/FhirResourceDaoValueSetDstu3.java:320-331 | no result is "Code not found"; a result whose display differs from a non-blank supplied one is invalid and keeps its display; otherwise the result stands |
| `ValueSetValidate.ResolveValueSet` | hapi-fhir-jpaserver-base/src/main/java/ca/uhn/fhir/jpa/dao/dstu3/FhirResourceDaoValueSetDstu3.java:284-299 | an id reads the resource; an identifier takes the built-in value set when there is one, otherwise the one the general lookup finds, and fails with "Unknown ValueSet identifier: " when neither knows it |
| `ValueSetValidate.ValidateCode` | hapi-fhir-jpaserver-base/src/main/java/ca/uhn/fhir/jpa/dao/dstu3/FhirResourceDaoValueSetDstu3.java:266-333 | bad arguments fail first; a failure to read or find the value set, and a failure to expand it, are passed on unchanged; nothing to validate against fails; a bare code goes to the code system lookup; a display mismatch is always invalid and a success always has a compatible display |
| `ValueSetValidate.ValidateCodeAgainstValueSet` | hapi-fhir-jpaserver-base/src/main/java/ca/uhn/fhir/jpa/dao/dstu3/FhirResourceDaoValueSetDstu3.java:311-331 | against an expanded value set the answer is valid exactly when the search finds a node with a compatible display, and "Code not found" exactly when no node answers; the answer is exactly "Code not found" with no display, "Display for code does not match" with the node's display, or "Validation succeeded" with the node's display |
| `ValueSetValidate.EmptyCodingShadowsConcept` | hapi-fhir-jpaserver-base/src/main/java/ca/uhn/fhir/jpa/dao/dstu3/FhirResourceDaoValueSetDstu3.java:275-282 | an empty coding passes the argument check next to a codeable concept, yet the search then compares against the empty coding |

## Left out

- Transactions. Spring/JPA transaction semantics, including the independent commit (`REQUIRES_NEW`) of `deleteLink`, are not modelled. A delete is a plain removal from the table.
- Query-by-example internals. `Example.of` and the repository are written as explicit filters over the table. `findOne` on several hits is defined by the library; the model reports `NonUniqueResult`. Result lists are sets, because the repository's row order is not visible.
- Pid resolution. `IdHelperService` is the partial map `IdMap`. A resource that does not resolve is a `ResourceNotFound` or `ReferenceNotResolvable` error, or an empty answer where the finder returns an empty list.
- Null pids. `EmpiLinkDao.Save`, `EmpiLinkDao.CreateOrUpdateLinkEntity`: a link whose pids are null cannot be keyed, so both pids are preconditions. The table's column constraints are not part of this model.
- EmpiLinkDao.CreateOrUpdateLinkEntity: the transaction context is dereferenced although declared nullable, so a present context is a precondition. `EmpiLinkSvc.UpdateLink` reports `NullTransactionContext` instead of reaching that call with none.
- Time and logging. Wall-clock `Date` is a `nat` parameter. The troubleshooting log and the transaction log are reduced to one appended message.
- The matcher. The similarity and matching engine that decides the result is not modelled; results are inputs.
- The `updateLink` implementation is not part of this model. Its behaviour comes from the assertions of `EmpiLinkSvcTest`. When a target or person cannot be resolved it fails with `ReferenceNotResolvable`.
- The terminology services are parameters: the expansion engine, `read`, the two `fetchValueSet` lookups, and `lookupCode`. The paged overloads of `expandByIdentifier` and `doExpand` pass offset and count on to the engine and are otherwise the same, so one function models both. Offset and count are not modelled.
- ValueSetCompose.Expand, ValueSetCompose.ExpandByIdentifier, ValueSetValidate.ValidateCode: the expansion engine is given a whole ValueSet in the source but only its compose in the model. The paged `expand` copies the source's id and url into the request (FhirResourceDaoValueSetDstu3.java:219-221) and the plain one does not; `expandByIdentifier` sets the url on the value set it builds (136); `validateCode` hands the whole stored resource to `doExpand` (317). An engine that reads anything other than the compose is not modelled.
- ValueSetCompose.Expand: the source's includes are shared with the request, so `addFilterIfPresent` also appends the display filter to the caller's own value set. The model's values are immutable; the caller's value set is unchanged here.
- ValueSetValidate.ValidateCode: the pre-expanded validation path (`isPreExpandValueSets` with a pre-expanded value set) is a foreign call and is not modelled. Every value set is validated by expansion. The distinction between built-in and fetched value sets only matters for that path, so `ResolveValueSet` does not record it.
- `updateEntity` and `convertValueSet` are not modelled. They are storage side effects of the terminology service.
- Strings. `containsIgnoreCase` is modelled with ASCII lower-casing and `isBlank` with ASCII whitespace. Unicode case folding and Unicode whitespace are not modelled.
- ValueSetFilter.ApplyFilter: `total` is a Java `Integer`. Its 32-bit range is not modelled; the model total is an unbounded integer.
- Element emptiness. `ElementUtil.isEmpty` and HAPI's `isEmpty` are not part of this model. A primitive is taken as empty when blank, and a list as empty when each element is. A coding is taken as empty when its system, code and display are blank; its version and user-selected flag are not modelled.
- EmpiLinkSvc.UpdateLink: a repeated identical request is not a no-op. It goes through `createOrUpdateLinkEntity` again, which saves and moves `updated`. Whether the service skips such a request is in code not part of this model.
- EmpiLinkSvc.Projected: POSSIBLE_DUPLICATE links are not shown on the person. No test decides this case.
- Concurrency, row locking and retry on conflict do not appear in this code and are not modelled.

## Findings

| source | as written | input that shows it | evidently intended | confidence | as-written member | corrected member |
|---|---|---|---|---|---|---|
| hapi-fhir-jpaserver-base/src/main/java/ca/uhn/fhir/jpa/dao/dstu3/FhirResourceDaoValueSetDstu3.java:140-148 | with a non-blank filter, `expandByIdentifier` adds a second include that has a display filter but no system; `doExpand` validates includes first and refuses every such include | `expandByIdentifier("http://example.org/vs", "heart")` with any engine fails with "ValueSet contains include criteria with no system defined" | expand the imported value set and narrow the result by display, as `expand` does | medium, not executed: assumes `ElementUtil.isEmpty` counts a set filter as not empty | `ValueSetCompose.ExpandByIdentifier` (`ValueSetCompose.ExpandByIdentifierRejectsEveryFilter`) | `ValueSetCompose.ExpandByIdentifierFiltered` |
| hapi-fhir-jpaserver-base/src/main/java/ca/uhn/fhir/jpa/dao/dstu3/FhirResourceDaoValueSetDstu3.java:197-200 | `expand` passes every concept-free include to `addFilterIfPresent`, including one that only imports a value set and names no system; the include then has a filter and no system, and `doExpand` refuses it | `expand` of a value set whose one include imports "http://example.org/vs", with filter "heart", fails with "ValueSet contains include criteria with no system defined" | put the display filter only into includes that name a system and narrow the result by display afterwards, which `expand` already does | medium, not executed: assumes `ElementUtil.isEmpty` counts a set filter as not empty | `ValueSetCompose.Expand` (`ValueSetCompose.ExpandFilterOnImportOnlyIncludeFails`) | `ValueSetCompose.ExpandFiltered` (`ValueSetCompose.ExpandFilteredOnImportOnlyInclude`) |

=== FILE: common.dfy ===
/** Small helpers shared by the EMPI link model and the ValueSet model:
    nullable values, error-carrying results, the "blank" test of
    commons-lang `StringUtils.isBlank`, and an ASCII model of
    `StringUtils.containsIgnoreCase`. */
module Common {

  /** A nullable Java reference: `None` stands for `null`. */
  datatype Option<+T> = None | Some(value: T)

  /** The outcome of an operation that either returns a value or throws. */
  datatype Result<+T, +E> = Ok(value: T) | Err(error: E)

  /** The outcome of a check that either passes or throws. */
  datatype Outcome<+E> = Pass | Fail(error: E)

  /** The characters `Character.isWhitespace` accepts in the ASCII range. */
  predicate IsWhitespace(c: char)
  {
    c == ' ' || c == '\t' || c == '\n' || c == '\r' || c == '\U{000B}' || c == '\U{000C}'
    || ('\U{001C}' <= c <= '\U{001F}')
  }

  /** Every character of `s` is whitespace. */
  predicate AllWhitespace(s: string)
  {
    s == [] || (IsWhitespace(s[0]) && AllWhitespace(s[1..]))
  }

  /** `isBlank`: null, empty, or whitespace only. */
  predicate IsBlank(s: Option<string>)
  {
    s.None? || AllWhitespace(s.value)
  }

  predicate IsNotBlank(s: Option<string>)
  {
    !IsBlank(s)
  }

  /** The recursive definition agrees with the one of commons-lang: blank
      means every character is whitespace. */
  lemma {:induction false} AllWhitespaceIsEveryCharacter(s: string)
    ensures AllWhitespace(s) <==> forall i :: 0 <= i < |s| ==> IsWhitespace(s[i])
  {
    if s != [] {
      AllWhitespaceIsEveryCharacter(s[1..]);
      if forall i :: 0 <= i < |s| ==> IsWhitespace(s[i]) {
        forall i | 0 <= i < |s[1..]| ensures IsWhitespace(s[1..][i]) {
          assert s[1..][i] == s[i + 1];
        }
      }
    }
  }

  /** ASCII lower-casing; other characters are left as they are. */
  function ToLower(c: char): char
  {
    if 'A' <= c <= 'Z' then (c as int + 32) as char else c
  }

  /** `s` begins with `f`, ignoring ASCII case. */
  predicate StartsWithIgnoreCase(s: string, f: string)
  {
    f == [] || (s != [] && ToLower(s[0]) == ToLower(f[0]) && StartsWithIgnoreCase(s[1..], f[1..]))
  }

  /** `containsIgnoreCase(s, f)`: `f` occurs in `s` at some position,
      ignoring case; the empty string occurs everywhere. */
  predicate ContainsIgnoreCase(s: string, f: string)
  {
    StartsWithIgnoreCase(s, f) || (s != [] && ContainsIgnoreCase(s[1..], f))
  }

  /** The region of `s` starting at `i` equals `f`, ignoring ASCII case. */
  predicate RegionMatchesIgnoreCase(s: string, f: string, i: int)
  {
    0 <= i && i + |f| <= |s| && forall j :: 0 <= j < |f| ==> ToLower(s[i + j]) == ToLower(f[j])
  }

  lemma {:induction false} StartsWithIsRegionAtZero(s: string, f: string)
    ensures StartsWithIgnoreCase(s, f) <==> RegionMatchesIgnoreCase(s, f, 0)
  {
    if f != [] && s != [] {
      StartsWithIsRegionAtZero(s[1..], f[1..]);
      if RegionMatchesIgnoreCase(s, f, 0) {
        forall j | 0 <= j < |f[1..]| ensures ToLower(s[1..][j]) == ToLower(f[1..][j]) {
          assert s[1..][j] == s[j + 1] && f[1..][j] == f[j + 1];
        }
      }
      if RegionMatchesIgnoreCase(s[1..], f[1..], 0) && ToLower(s[0]) == ToLower(f[0]) {
        forall j | 0 <= j < |f| ensures ToLower(s[j]) == ToLower(f[j]) {
          if j > 0 {
            assert s[1..][j - 1] == s[j] && f[1..][j - 1] == f[j];
          }
        }
      }
    }
  }

  /** A region of `s[1..]` is the region of `s` one position further on. */
  lemma RegionOfTail(s: string, f: string, i: nat)
    requires s != []
    ensures RegionMatchesIgnoreCase(s[1..], f, i) <==> RegionMatchesIgnoreCase(s, f, i + 1)
  {
    if i + |f| <= |s[1..]| {
      forall j | 0 <= j < |f|
        ensures (ToLower(s[1..][i + j]) == ToLower(f[j])) == (ToLower(s[i + 1 + j]) == ToLower(f[j]))
      {
        assert s[1..][i + j] == s[i + 1 + j];
      }
    }
  }

  /** The recursive definition agrees with the one of commons-lang: some
      region of `s` equals `f`, ignoring case. */
  lemma {:induction false} ContainsIgnoreCaseIsSomeRegion(s: string, f: string)
    ensures ContainsIgnoreCase(s, f) <==> exists i :: 0 <= i <= |s| - |f| && RegionMatchesIgnoreCase(s, f, i)
  {
    StartsWithIsRegionAtZero(s, f);
    if s != [] {
      ContainsIgnoreCaseIsSomeRegion(s[1..], f);
      if exists i :: 0 <= i <= |s| - |f| && RegionMatchesIgnoreCase(s, f, i) {
        var i :| 0 <= i <= |s| - |f| && RegionMatchesIgnoreCase(s, f, i);
        if i > 0 {
          RegionOfTail(s, f, i - 1);
        }
      }
      if exists i :: 0 <= i <= |s[1..]| - |f| && RegionMatchesIgnoreCase(s[1..], f, i) {
        var i :| 0 <= i <= |s[1..]| - |f| && RegionMatchesIgnoreCase(s[1..], f, i);
        RegionOfTail(s, f, i);
      }
    } else if exists i :: 0 <= i <= |s| - |f| && RegionMatchesIgnoreCase(s, f, i) {
      var i :| 0 <= i <= |s| - |f| && RegionMatchesIgnoreCase(s, f, i);
      assert i == 0;
    }
  }

  /** A set with one element has no two distinct members. */
  lemma SingletonUnique<T>(xs: set<T>)
    requires |xs| == 1
    ensures forall x, y :: x in xs && y in xs ==> x == y
  {
    forall x, y | x in xs && y in xs
      ensures x == y
    {
      assert |xs - {x}| == |xs| - 1;
    }
  }

  /** The only element of a one-element set. */
  function TheElement<T>(xs: set<T>): (x: T)
    requires |xs| == 1
    ensures xs == {x}
  {
    SingletonUnique(xs);
    var x :| x in xs;
    x
  }
}

=== FILE: empi_link.dfy ===
/** The EMPI link entity and the store that holds it.

    A link is directed: it goes from a person (the canonical identity) to a
    target (a patient, or another person for duplicate links). The store is
    a finite map keyed by the ordered pair of pids, so there is at most one
    link per ordered pair by construction; `Valid` says each stored link
    carries the pids of its own key. */
module EmpiLinkModel {
  import opened Common

  /** A resource's persistent id (a Java `Long`). */
  type Pid = int

  /** Timestamps are ticks of a logical clock supplied by the caller. */
  type Time = nat

  /** A resource reference such as "Patient/12", already unqualified and versionless. */
  type ResourceId = string

  /** The partial resolution resource -> pid of the id helper service. */
  type IdMap = map<ResourceId, Pid>

  datatype MatchResult = NoMatch | PossibleMatch | PossibleDuplicate | Match

  datatype LinkSource = Auto | Manual

  /** Every field is nullable, as in the JPA entity. */
  datatype EmpiLink = EmpiLink(
    personPid: Option<Pid>,
    targetPid: Option<Pid>,
    matchResult: Option<MatchResult>,
    linkSource: Option<LinkSource>,
    created: Option<Time>,
    updated: Option<Time>)

  /** `new EmpiLink()`: every field unset. */
  const BlankLink := EmpiLink(None, None, None, None, None, None)

  /** The transaction context only collects log messages here. */
  datatype TxContext = TxContext(messages: seq<string>)

  datatype LinkStore = LinkStore(links: map<(Pid, Pid), EmpiLink>)

  /** Each stored link sits under the key made of its own pids. */
  predicate Valid(s: LinkStore)
  {
    forall k :: k in s.links ==> s.links[k].personPid == Some(k.0) && s.links[k].targetPid == Some(k.1)
  }

  /** The number of rows in the link table. */
  function Count(s: LinkStore): nat
  {
    |s.links|
  }

  /** `getPidOrNull`. */
  function PidOf(ids: IdMap, r: ResourceId): Option<Pid>
  {
    if r in ids then Some(ids[r]) else None
  }

  /** A field of a query-by-example probe: an unset field matches anything. */
  predicate FieldMatches<T(==)>(probe: Option<T>, value: Option<T>)
  {
    probe.None? || probe == value
  }

  /** `Example.of(probe)` with the default matcher: all set fields are equal. */
  predicate MatchesExample(probe: EmpiLink, l: EmpiLink)
  {
    && FieldMatches(probe.personPid, l.personPid)
    && FieldMatches(probe.targetPid, l.targetPid)
    && FieldMatches(probe.matchResult, l.matchResult)
    && FieldMatches(probe.linkSource, l.linkSource)
    && FieldMatches(probe.created, l.created)
    && FieldMatches(probe.updated, l.updated)
  }

  /** The stored link of key `k`, or null. */
  function StoredAt(s: LinkStore, k: (Pid, Pid)): Option<EmpiLink>
  {
    if k in s.links then Some(s.links[k]) else None
  }
}

=== FILE: empi_link_dao.dfy ===
/** The EMPI link data-access service: keyed lookup, get-or-create,
    query-by-example finders, save with created/updated stamping,
    create-or-update, single delete and purge by pid.

    Every operation is a function from the store (and, where the service
    resolves resources, the id map) to its result; the operations that write
    return the new store. */
module EmpiLinkDao {
  import opened Common
  import opened EmpiLinkModel

  datatype DaoError =
    | NonUniqueResult                       // findOne saw more than one row
    | ResourceNotFound(resource: ResourceId) // getPidOrThrowException

  /** The text of a match result as `Enum.toString` prints it. */
  function ResultName(m: MatchResult): string
  {
    match m
    case NoMatch => "NO_MATCH"
    case PossibleMatch => "POSSIBLE_MATCH"
    case PossibleDuplicate => "POSSIBLE_DUPLICATE"
    case Match => "MATCH"
  }

  /** `findEmpiLinkByExample` (the repository's `findAll(Example)`): every stored
      link agreeing with each set field of the probe. */
  function FindEmpiLinkByExample(s: LinkStore, probe: EmpiLink): (r: set<EmpiLink>)
    ensures forall l :: l in r <==> l in s.links.Values && MatchesExample(probe, l)
    ensures r <= s.links.Values
    ensures probe == BlankLink ==> r == s.links.Values
  {
    set l | l in s.links.Values && MatchesExample(probe, l)
  }

  /** The repository's `findOne(Example)`: empty on no hit, the link on one
      hit, an error when the probe matches several rows. */
  function FindOne(s: LinkStore, probe: EmpiLink): (r: Result<Option<EmpiLink>, DaoError>)
    ensures r == Ok(None) <==> forall l :: l in s.links.Values ==> !MatchesExample(probe, l)
    ensures r.Ok? && r.value.Some? ==>
      && r.value.value in s.links.Values
      && MatchesExample(probe, r.value.value)
      && forall l :: l in s.links.Values && MatchesExample(probe, l) ==> l == r.value.value
    ensures r.Err? ==> r.error == NonUniqueResult
    ensures r.Err? <==> |FindEmpiLinkByExample(s, probe)| >= 2
    ensures forall l :: FindEmpiLinkByExample(s, probe) == {l} ==> r == Ok(Some(l))
  {
    var hits := FindEmpiLinkByExample(s, probe);
    if |hits| == 0 then Ok(None)
    else if |hits| == 1 then Ok(Some(TheElement(hits)))
    else Err(NonUniqueResult)
  }

  /** Setting more fields of a probe can only narrow the query: a probe that
      agrees with every field `coarse` sets finds a subset of what `coarse`
      finds. */
  lemma {:induction false} MoreSpecificExampleFindsFewer(s: LinkStore, coarse: EmpiLink, fine: EmpiLink)
    requires MatchesExample(coarse, fine)
    ensures FindEmpiLinkByExample(s, fine) <= FindEmpiLinkByExample(s, coarse)
  {
    forall l | l in FindEmpiLinkByExample(s, fine) ensures MatchesExample(coarse, l) {
      assert MatchesExample(fine, l);
    }
  }

  /** `getLinkByPersonPidAndTargetPid`: a null pid short-circuits to empty. */
  function GetLinkByPersonPidAndTargetPid(s: LinkStore, p: Option<Pid>, t: Option<Pid>): (r: Option<EmpiLink>)
    ensures p.None? || t.None? ==> r.None?
    ensures r.Some? ==> r.value in s.links.Values
    ensures Valid(s) && r.Some? ==> r.value.personPid == p && r.value.targetPid == t
    ensures p.Some? && t.Some? && r.None? ==> (p.value, t.value) !in s.links
  {
    if t.None? || p.None? then None
    else StoredAt(s, (p.value, t.value))
  }

  /** The keyed lookup gives the same answer as the query-by-example it stands
      for: for a pair probe `findOne` never sees two rows. */
  lemma PairLookupAgreesWithExample(s: LinkStore, p: Pid, t: Pid)
    requires Valid(s)
    ensures FindOne(s, BlankLink.(personPid := Some(p), targetPid := Some(t)))
         == Ok(GetLinkByPersonPidAndTargetPid(s, Some(p), Some(t)))
  {
    var probe := BlankLink.(personPid := Some(p), targetPid := Some(t));
    var hits := FindEmpiLinkByExample(s, probe);
    if (p, t) in s.links {
      var l := s.links[(p, t)];
      assert l in hits;
      forall m | m in hits ensures m == l {
        var k :| k in s.links && s.links[k] == m;
        assert k == (p, t);
      }
      assert hits == {l};
    } else {
      forall m | m in s.links.Values ensures !MatchesExample(probe, m) {
        var k :| k in s.links && s.links[k] == m;
      }
    }
  }

  /** `getOrCreateEmpiLinkByPersonPidAndTargetPid`: the stored link, or a new
      unsaved link carrying the two pids. Nothing is written. */
  function GetOrCreateEmpiLinkByPersonPidAndTargetPid(s: LinkStore, p: Option<Pid>, t: Option<Pid>): (r: EmpiLink)
    ensures Valid(s) ==> r.personPid == p && r.targetPid == t
    ensures p.Some? && t.Some? && (p.value, t.value) in s.links ==> r == s.links[(p.value, t.value)]
    ensures (p.None? || t.None? || (p.value, t.value) !in s.links) ==>
      r.matchResult.None? && r.linkSource.None? && r.created.None? && r.updated.None?
  {
    match GetLinkByPersonPidAndTargetPid(s, p, t)
    case Some(l) => l
    case None => BlankLink.(personPid := p, targetPid := t)
  }

  /** The store key of a link whose pids are both set. */
  function KeyOf(l: EmpiLink): (Pid, Pid)
    requires l.personPid.Some? && l.targetPid.Some?
  {
    (l.personPid.value, l.targetPid.value)
  }

  /** `save`: stamp `created` once and `updated` always, then upsert. */
  function Save(s: LinkStore, link: EmpiLink, now: Time): (r: (LinkStore, EmpiLink))
    requires link.personPid.Some? && link.targetPid.Some?
    ensures link.created.Some? ==> r.1.created == link.created
    ensures link.created.None? ==> r.1.created == Some(now)
    ensures r.1.updated == Some(now)
    ensures r.1.(created := link.created, updated := link.updated) == link
    ensures KeyOf(link) in r.0.links && r.0.links[KeyOf(link)] == r.1
    ensures forall k :: k != KeyOf(link) ==> StoredAt(r.0, k) == StoredAt(s, k)
    ensures Valid(s) ==> Valid(r.0)
  {
    var created := if link.created.None? then Some(now) else link.created;
    var saved := link.(created := created, updated := Some(now));
    (LinkStore(s.links[KeyOf(link) := saved]), saved)
  }

  /** `createOrUpdateLinkEntity`: resolve both resources, reuse or create the
      link of the pair, set result and source, log one message, save. The
      context is dereferenced although declared nullable, and a null pid
      would reach the table, so both are preconditions. */
  function CreateOrUpdateLinkEntity(
    s: LinkStore, ids: IdMap, person: ResourceId, target: ResourceId,
    result: MatchResult, source: LinkSource, ctx: Option<TxContext>, now: Time): (r: (LinkStore, EmpiLink, TxContext))
    requires Valid(s)
    requires person in ids && target in ids
    requires ctx.Some?
    ensures var k := (ids[person], ids[target]);
      && k in r.0.links && r.0.links[k] == r.1
      && r.1.matchResult == Some(result) && r.1.linkSource == Some(source)
      && r.1.updated == Some(now)
      && (k in s.links && s.links[k].created.Some? ==> r.1.created == s.links[k].created)
      && (k !in s.links ==> r.1.created == Some(now))
      && (forall k' :: k' != k ==> StoredAt(r.0, k') == StoredAt(s, k'))
      && Count(r.0) == Count(s) + (if k in s.links then 0 else 1)
    ensures |r.2.messages| == |ctx.value.messages| + 1
    ensures r.2.messages[..|ctx.value.messages|] == ctx.value.messages
    ensures Valid(r.0)
  {
    var p := ids[person];
    var t := ids[target];
    var link := GetOrCreateEmpiLinkByPersonPidAndTargetPid(s, Some(p), Some(t));
    var link' := link.(linkSource := Some(source), matchResult := Some(result));
    var message := "Creating EmpiLink from " + person + " to " + target + " -> " + ResultName(result);
    var ctx' := TxContext(ctx.value.messages + [message]);
    var (s', saved) := Save(s, link', now);
    assert s'.links == s.links[(p, t) := saved];
    (s', saved, ctx')
  }

  /** A run of create-or-update calls on one ordered pair. */
  function CreateOrUpdateAll(
    s: LinkStore, ids: IdMap, person: ResourceId, target: ResourceId,
    calls: seq<(MatchResult, LinkSource)>, ctx: TxContext, now: Time): (r: LinkStore)
    requires Valid(s) && person in ids && target in ids
    decreases calls
  {
    if calls == [] then s
    else
      var (s', _, ctx') := CreateOrUpdateLinkEntity(s, ids, person, target, calls[0].0, calls[0].1, Some(ctx), now);
      CreateOrUpdateAll(s', ids, person, target, calls[1..], ctx', now + 1)
  }

  /** Repeating create-or-update on the same pair reuses the stored link:
      however many calls, the table grows by at most one row, and by none if
      the pair was already linked. */
  lemma {:induction false} RepeatedCreateOrUpdateAddsAtMostOne(
    s: LinkStore, ids: IdMap, person: ResourceId, target: ResourceId,
    calls: seq<(MatchResult, LinkSource)>, ctx: TxContext, now: Time)
    requires Valid(s) && person in ids && target in ids
    decreases calls
    ensures var r := CreateOrUpdateAll(s, ids, person, target, calls, ctx, now);
      && Count(r) <= Count(s) + 1
      && ((ids[person], ids[target]) in s.links ==> Count(r) == Count(s))
      && (calls != [] ==> (ids[person], ids[target]) in r.links)
  {
    if calls != [] {
      var (s', _, ctx') := CreateOrUpdateLinkEntity(s, ids, person, target, calls[0].0, calls[0].1, Some(ctx), now);
      RepeatedCreateOrUpdateAddsAtMostOne(s', ids, person, target, calls[1..], ctx', now + 1);
    }
  }

  /** `deleteLink`: remove the row of this link's pair. */
  function DeleteLink(s: LinkStore, link: EmpiLink): (r: LinkStore)
    ensures link.personPid.Some? && link.targetPid.Some? ==>
      && KeyOf(link) !in r.links
      && (forall k :: k != KeyOf(link) ==> StoredAt(r, k) == StoredAt(s, k))
      && Count(r) == Count(s) - (if KeyOf(link) in s.links then 1 else 0)
    ensures link.personPid.None? || link.targetPid.None? ==> r == s
    ensures Valid(s) ==> Valid(r)
  {
    if link.personPid.Some? && link.targetPid.Some? then
      var k := KeyOf(link);
      assert k !in s.links ==> s.links - {k} == s.links;
      LinkStore(s.links - {k})
    else s
  }

  /** A key whose person or target is `pid`. */
  predicate References(k: (Pid, Pid), pid: Pid)
  {
    k.0 == pid || k.1 == pid
  }

  /** `deleteWithAnyReferenceTo` (used by expunge): resolve the resource or
      fail, then drop every link naming its pid at either end and report how
      many rows went. */
  function DeleteWithAnyReferenceTo(s: LinkStore, ids: IdMap, resource: ResourceId): (r: Result<(LinkStore, nat), DaoError>)
    ensures r.Err? <==> resource !in ids
    ensures r.Err? ==> r.error == ResourceNotFound(resource)
    ensures r.Ok? ==>
      var pid := ids[resource];
      && (forall k :: k in r.value.0.links ==> !References(k, pid))
      && (forall k :: !References(k, pid) ==> StoredAt(r.value.0, k) == StoredAt(s, k))
      && r.value.1 == |set k | k in s.links && References(k, pid)|
      && Count(r.value.0) + r.value.1 == Count(s)
    ensures r.Ok? && Valid(s) ==> Valid(r.value.0)
  {
    if resource !in ids then Err(ResourceNotFound(resource))
    else
      var pid := ids[resource];
      var gone := set k | k in s.links && References(k, pid);
      var kept := s.links - gone;
      assert kept.Keys == s.links.Keys - gone;
      assert s.links.Keys == kept.Keys + gone;
      Ok((LinkStore(kept), |gone|))
  }

  /** `findEmpiLinksByPersonId`: all links of the resolved person, none when
      the resource does not resolve. */
  function FindEmpiLinksByPersonId(s: LinkStore, ids: IdMap, person: ResourceId): (r: set<EmpiLink>)
    ensures person !in ids ==> r == {}
    ensures person in ids ==> forall l :: l in r <==> l in s.links.Values && l.personPid == Some(ids[person])
  {
    if person !in ids then {}
    else FindEmpiLinkByExample(s, BlankLink.(personPid := Some(ids[person])))
  }

  /** `findEmpiLinksByTarget`: all links to the resolved target, none when the
      resource does not resolve. */
  function FindEmpiLinksByTarget(s: LinkStore, ids: IdMap, target: ResourceId): (r: set<EmpiLink>)
    ensures target !in ids ==> r == {}
    ensures target in ids ==> forall l :: l in r <==> l in s.links.Values && l.targetPid == Some(ids[target])
  {
    if target !in ids then {}
    else FindEmpiLinkByExample(s, BlankLink.(targetPid := Some(ids[target])))
  }

  /** `findEmpiLinkByTarget`: the one link to the resolved target. */
  function FindEmpiLinkByTarget(s: LinkStore, ids: IdMap, target: ResourceId): (r: Result<Option<EmpiLink>, DaoError>)
    ensures target !in ids ==> r == Ok(None)
    ensures r.Ok? && r.value.Some? ==> r.value.value in s.links.Values && r.value.value.targetPid == PidOf(ids, target)
    ensures target in ids && r == Ok(None) ==> forall l :: l in s.links.Values ==> l.targetPid != Some(ids[target])
    ensures target in ids ==> (r == Ok(None) <==> FindEmpiLinksByTarget(s, ids, target) == {})
    ensures target in ids ==> (r.Err? <==> |FindEmpiLinksByTarget(s, ids, target)| >= 2)
    ensures forall l :: FindEmpiLinksByTarget(s, ids, target) == {l} ==> r == Ok(Some(l))
  {
    if target !in ids then Ok(None)
    else FindOne(s, BlankLink.(targetPid := Some(ids[target])))
  }

  /** `getEmpiLinksByTargetPidAndMatchResult`; a null argument filters nothing. */
  function GetEmpiLinksByTargetPidAndMatchResult(s: LinkStore, t: Option<Pid>, m: Option<MatchResult>): (r: set<EmpiLink>)
    ensures forall l :: l in r <==>
      l in s.links.Values && (t.None? || l.targetPid == t) && (m.None? || l.matchResult == m)
  {
    FindEmpiLinkByExample(s, BlankLink.(targetPid := t, matchResult := m))
  }

  /** `getMatchedLinkForTargetPid`: the `MATCH` link to the target. */
  function GetMatchedLinkForTargetPid(s: LinkStore, t: Option<Pid>): (r: Result<Option<EmpiLink>, DaoError>)
    ensures r.Ok? && r.value.Some? ==>
      r.value.value in s.links.Values && r.value.value.matchResult == Some(Match) && (t.None? || r.value.value.targetPid == t)
    ensures r == Ok(None) <==>
      forall l :: l in s.links.Values && l.matchResult == Some(Match) ==> !(t.None? || l.targetPid == t)
    ensures r.Err? <==> |GetEmpiLinksByTargetPidAndMatchResult(s, t, Some(Match))| >= 2
    ensures forall l :: GetEmpiLinksByTargetPidAndMatchResult(s, t, Some(Match)) == {l} ==> r == Ok(Some(l))
  {
    FindOne(s, BlankLink.(targetPid := t, matchResult := Some(Match)))
  }

  /** `getMatchedLinkForTarget`: as above after resolving the resource; an
      unresolvable resource has no match. */
  function GetMatchedLinkForTarget(s: LinkStore, ids: IdMap, target: ResourceId): (r: Result<Option<EmpiLink>, DaoError>)
    ensures target !in ids ==> r == Ok(None)
    ensures r.Ok? && r.value.Some? ==>
      && r.value.value in s.links.Values
      && r.value.value.matchResult == Some(Match)
      && r.value.value.targetPid == PidOf(ids, target)
    ensures target in ids ==>
      (r == Ok(None) <==> forall l :: l in s.links.Values && l.matchResult == Some(Match) ==> l.targetPid != Some(ids[target]))
    ensures target in ids ==>
      (r.Err? <==> |GetEmpiLinksByTargetPidAndMatchResult(s, Some(ids[target]), Some(Match))| >= 2)
    ensures target in ids ==> forall l ::
      GetEmpiLinksByTargetPidAndMatchResult(s, Some(ids[target]), Some(Match)) == {l} ==> r == Ok(Some(l))
  {
    if target !in ids then Ok(None)
    else GetMatchedLinkForTargetPid(s, Some(ids[target]))
  }

  /** `getEmpiLinksByPersonPidTargetPidAndMatchResult`. */
  function GetEmpiLinksByPersonPidTargetPidAndMatchResult(
    s: LinkStore, p: Option<Pid>, t: Option<Pid>, m: Option<MatchResult>): (r: Result<Option<EmpiLink>, DaoError>)
    ensures r.Ok? && r.value.Some? ==>
      && r.value.value in s.links.Values
      && (p.None? || r.value.value.personPid == p)
      && (t.None? || r.value.value.targetPid == t)
      && (m.None? || r.value.value.matchResult == m)
    ensures r == Ok(None) <==> forall l :: l in s.links.Values ==>
      !((p.None? || l.personPid == p) && (t.None? || l.targetPid == t) && (m.None? || l.matchResult == m))
    ensures r.Err? <==> |FindEmpiLinkByExample(s, BlankLink.(personPid := p, targetPid := t, matchResult := m))| >= 2
  {
    FindOne(s, BlankLink.(personPid := p, targetPid := t, matchResult := m))
  }

  /** With both pids given the query cannot see two rows: it answers whether
      the pair's link has the requested result. */
  lemma PairAndResultLookupIsExact(s: LinkStore, p: Pid, t: Pid, m: MatchResult)
    requires Valid(s)
    ensures var r := GetEmpiLinksByPersonPidTargetPidAndMatchResult(s, Some(p), Some(t), Some(m));
      && r.Ok?
      && (r.value.Some? <==> (p, t) in s.links && s.links[(p, t)].matchResult == Some(m))
  {
    var probe := BlankLink.(personPid := Some(p), targetPid := Some(t), matchResult := Some(m));
    PairOnlyMatchesItsKey(s, probe);
    if (p, t) in s.links && s.links[(p, t)].matchResult == Some(m) {
      assert s.links[(p, t)] in FindEmpiLinkByExample(s, probe);
    }
  }

  /** In a valid store a probe fixing both pids matches at most the row of
      that key. */
  lemma PairOnlyMatchesItsKey(s: LinkStore, probe: EmpiLink)
    requires Valid(s) && probe.personPid.Some? && probe.targetPid.Some?
    ensures forall l :: l in s.links.Values && MatchesExample(probe, l) ==>
      KeyOf(probe) in s.links && l == s.links[KeyOf(probe)]
    ensures |FindEmpiLinkByExample(s, probe)| <= 1
  {
    var hits := FindEmpiLinkByExample(s, probe);
    forall l | l in s.links.Values && MatchesExample(probe, l)
      ensures KeyOf(probe) in s.links && l == s.links[KeyOf(probe)]
    {
      var k :| k in s.links && s.links[k] == l;
      assert k == KeyOf(probe);
    }
    if KeyOf(probe) in s.links && s.links[KeyOf(probe)] in hits {
      assert hits == {s.links[KeyOf(probe)]};
    } else {
      assert hits == {};
    }
  }

  /** `getPossibleDuplicates`: every link classified `POSSIBLE_DUPLICATE`. */
  function GetPossibleDuplicates(s: LinkStore): (r: set<EmpiLink>)
    ensures forall l :: l in r <==> l in s.links.Values && l.matchResult == Some(PossibleDuplicate)
  {
    FindEmpiLinkByExample(s, BlankLink.(matchResult := Some(PossibleDuplicate)))
  }
}

=== FILE: empi_link_svc.dfy ===
/** The EMPI link service on top of the link store: the `updateLink`
    precedence policy and the projection of a person's links onto the
    person resource's own `link` list ("sync").

    The implementing class is not part of this model; its behaviour is
    taken from the assertions of EmpiLinkSvcTest:
    - a NO_MATCH link between the two resources, in either orientation,
      silently suppresses an automatic POSSIBLE_DUPLICATE (this check comes
      first, because such a NO_MATCH link is itself MANUAL);
    - the system may not assert NO_MATCH automatically;
    - the system may not change a link a human created;
    - everything else creates or updates the pair's link in place;
    - the person's link list shows the person's MATCH and POSSIBLE_MATCH
      links; NO_MATCH links are never shown. */
module EmpiLinkSvc {
  import opened Common
  import opened EmpiLinkModel
  import opened EmpiLinkDao

  const AutoNoMatchMessage := "EMPI system is not allowed to automatically NO_MATCH a resource"
  const ManualLinkMessage := "EMPI system is not allowed to modify links on manually created links"

  datatype SvcError =
    | InternalError(message: string)            // InternalErrorException
    | ReferenceNotResolvable(resource: ResourceId)
    | NullTransactionContext                    // a null context reached createOrUpdateLinkEntity

  datatype Decision = Apply | Suppress | Reject(reason: string)

  /** The persisted state the service sees: the link table and, per person
      resource, the target references on its `link` list. */
  datatype EmpiState = EmpiState(store: LinkStore, personLinks: map<ResourceId, set<string>>)

  predicate IsNoMatchLink(l: Option<EmpiLink>)
  {
    l.Some? && l.value.matchResult == Some(NoMatch)
  }

  predicate IsManualLink(l: Option<EmpiLink>)
  {
    l.Some? && l.value.linkSource == Some(Manual)
  }

  /** The precedence policy, given the stored link of the pair in its own
      orientation (`forward`) and reversed (`reverse`). */
  function Decide(forward: Option<EmpiLink>, reverse: Option<EmpiLink>, result: MatchResult, source: LinkSource): (d: Decision)
    ensures source == Manual ==> d == Apply
    ensures source == Auto && result == NoMatch ==> d == Reject(AutoNoMatchMessage)
    ensures d == Suppress <==>
      source == Auto && result == PossibleDuplicate && (IsNoMatchLink(forward) || IsNoMatchLink(reverse))
    ensures source == Auto && IsManualLink(forward) ==> d != Apply
    ensures d.Reject? ==> d.reason == AutoNoMatchMessage || d.reason == ManualLinkMessage
    ensures d == Reject(ManualLinkMessage) ==> IsManualLink(forward)
    ensures d == Reject(AutoNoMatchMessage) <==> source == Auto && result == NoMatch
    ensures d == Reject(ManualLinkMessage) <==>
      && source == Auto && result != NoMatch && IsManualLink(forward)
      && !(result == PossibleDuplicate && (IsNoMatchLink(forward) || IsNoMatchLink(reverse)))
    ensures d == Apply <==>
      (source == Manual
       || (result != NoMatch && !IsManualLink(forward)
           && !(result == PossibleDuplicate && (IsNoMatchLink(forward) || IsNoMatchLink(reverse)))))
  {
    if source == Auto && result == PossibleDuplicate && (IsNoMatchLink(forward) || IsNoMatchLink(reverse)) then Suppress
    else if source == Auto && result == NoMatch then Reject(AutoNoMatchMessage)
    else if source == Auto && IsManualLink(forward) then Reject(ManualLinkMessage)
    else
      assert source == Manual || (result != NoMatch && !IsManualLink(forward));
      Apply
  }

  /** The classifications that appear on a person's link list: MATCH and
      POSSIBLE_MATCH. */
  predicate Projected(m: Option<MatchResult>)
  {
    m == Some(Match) || m == Some(PossibleMatch)
  }

  /** A link of person `pid` that belongs on the person's link list. */
  predicate ShownFor(l: EmpiLink, pid: Pid)
  {
    l.personPid == Some(pid) && l.targetPid.Some? && Projected(l.matchResult)
  }

  /** The target references a person's link list should show, computed from
      the link table; `refOf` gives the versionless reference of a pid. */
  function Projection(s: LinkStore, ids: IdMap, person: ResourceId, refOf: Pid -> string): (r: set<string>)
    ensures person !in ids ==> r == {}
    ensures person in ids ==>
      forall l :: l in s.links.Values && ShownFor(l, ids[person]) ==> refOf(l.targetPid.value) in r
    ensures person in ids ==>
      forall x :: x in r ==>
        exists l :: l in s.links.Values && ShownFor(l, ids[person]) && refOf(l.targetPid.value) == x
  {
    set l | l in FindEmpiLinksByPersonId(s, ids, person) && l.targetPid.Some? && Projected(l.matchResult)
      :: refOf(l.targetPid.value)
  }

  /** `syncEmpiLinksToPersonLinks`: replace the person's link list by the
      projection of its links; the table is not touched. */
  function SyncEmpiLinksToPersonLinks(st: EmpiState, ids: IdMap, refOf: Pid -> string, person: ResourceId): (r: EmpiState)
    ensures r.store == st.store
    ensures person in r.personLinks && r.personLinks[person] == Projection(st.store, ids, person, refOf)
    ensures forall q :: q != person ==> (q in r.personLinks <==> q in st.personLinks)
    ensures forall q :: q != person && q in st.personLinks ==> r.personLinks[q] == st.personLinks[q]
  {
    st.(personLinks := st.personLinks[person := Projection(st.store, ids, person, refOf)])
  }

  /** `updateLink(person, target, result, source, context)`. Resolution
      failures abort before anything is read; a suppressed request returns
      the state unchanged; an applied one writes the pair's link through
      `createOrUpdateLinkEntity` and re-projects the person. */
  function UpdateLink(
    st: EmpiState, ids: IdMap, refOf: Pid -> string, person: ResourceId, target: ResourceId,
    result: MatchResult, source: LinkSource, ctx: Option<TxContext>, now: Time): (r: Result<(EmpiState, Option<TxContext>), SvcError>)
    requires Valid(st.store)
    ensures person !in ids ==> r == Err(ReferenceNotResolvable(person))
    ensures person in ids && target !in ids ==> r == Err(ReferenceNotResolvable(target))
    ensures r.Ok? ==> Valid(r.value.0.store) && person in ids && target in ids
    ensures r.Ok? ==> forall q :: q != person ==> (q in r.value.0.personLinks <==> q in st.personLinks)
    ensures r.Ok? ==> forall q :: q != person && q in st.personLinks ==> r.value.0.personLinks[q] == st.personLinks[q]
    ensures r.Ok? && r.value.0 != st ==>
      var k := (ids[person], ids[target]);
      && k in r.value.0.store.links
      && r.value.0.store.links[k].matchResult == Some(result)
      && r.value.0.store.links[k].linkSource == Some(source)
      && (forall k' :: k' != k ==> StoredAt(r.value.0.store, k') == StoredAt(st.store, k'))
      && person in r.value.0.personLinks
      && r.value.0.personLinks[person] == Projection(r.value.0.store, ids, person, refOf)
    ensures r.Err? && r.error.InternalError? ==> source == Auto
    ensures person in ids && target in ids ==>
      var k := (ids[person], ids[target]);
      var d := Decide(StoredAt(st.store, k), StoredAt(st.store, (k.1, k.0)), result, source);
      && (d == Suppress ==> r == Ok((st, ctx)))
      && (d.Reject? ==> r == Err(InternalError(d.reason)))
      && (d == Apply && ctx.None? ==> r == Err(NullTransactionContext))
      && (d == Apply && ctx.Some? ==>
           && r.Ok?
           && k in r.value.0.store.links
           && r.value.0.store.links[k].matchResult == Some(result)
           && r.value.0.store.links[k].linkSource == Some(source)
           && (forall k' :: k' != k ==> StoredAt(r.value.0.store, k') == StoredAt(st.store, k'))
           && person in r.value.0.personLinks
           && r.value.0.personLinks[person] == Projection(r.value.0.store, ids, person, refOf))
  {
    if person !in ids then Err(ReferenceNotResolvable(person))
    else if target !in ids then Err(ReferenceNotResolvable(target))
    else
      var p := ids[person];
      var t := ids[target];
      var forward := GetLinkByPersonPidAndTargetPid(st.store, Some(p), Some(t));
      var reverse := GetLinkByPersonPidAndTargetPid(st.store, Some(t), Some(p));
      match Decide(forward, reverse, result, source)
      case Suppress => Ok((st, ctx))
      case Reject(reason) => Err(InternalError(reason))
      case Apply =>
        if ctx.None? then Err(NullTransactionContext)
        else
          var (store', _, ctx') := CreateOrUpdateLinkEntity(st.store, ids, person, target, result, source, ctx, now);
          var st' := SyncEmpiLinksToPersonLinks(st.(store := store'), ids, refOf, person);
          Ok((st', Some(ctx')))
  }

  /** No two resources resolve to the same pid. */
  predicate InjectiveIds(ids: IdMap)
  {
    forall a, b :: a in ids && b in ids && ids[a] == ids[b] ==> a == b
  }

  /** No two pids have the same reference. */
  ghost predicate InjectiveRefs(refOf: Pid -> string)
  {
    forall a, b :: refOf(a) == refOf(b) ==> a == b
  }

  /** Every person's link list agrees with the link table. */
  predicate Consistent(st: EmpiState, ids: IdMap, refOf: Pid -> string)
  {
    forall q :: q in st.personLinks ==> st.personLinks[q] == Projection(st.store, ids, q, refOf)
  }

  // ---- properties of the policy, as the tests state them ----

  /** An automatic NO_MATCH always fails, whatever the table holds. */
  lemma AutomaticNoMatchIsRejected(
    st: EmpiState, ids: IdMap, refOf: Pid -> string, person: ResourceId, target: ResourceId,
    ctx: Option<TxContext>, now: Time)
    requires Valid(st.store) && person in ids && target in ids
    ensures UpdateLink(st, ids, refOf, person, target, NoMatch, Auto, ctx, now) == Err(InternalError(AutoNoMatchMessage))
  {
  }

  /** A human's request always goes through and leaves the pair's link with
      that result and source. */
  lemma ManualUpdateAlwaysApplies(
    st: EmpiState, ids: IdMap, refOf: Pid -> string, person: ResourceId, target: ResourceId,
    result: MatchResult, ctx: TxContext, now: Time)
    requires Valid(st.store) && person in ids && target in ids
    ensures var r := UpdateLink(st, ids, refOf, person, target, result, Manual, Some(ctx), now);
      && r.Ok?
      && (ids[person], ids[target]) in r.value.0.store.links
      && r.value.0.store.links[(ids[person], ids[target])].matchResult == Some(result)
      && r.value.0.store.links[(ids[person], ids[target])].linkSource == Some(Manual)
  {
  }

  /** Once a human created the pair's link, an automatic request either
      fails or changes nothing: the link's result and source survive. Unless
      it is a NO_MATCH (refused for that reason) or a POSSIBLE_DUPLICATE that
      a NO_MATCH link suppresses, it fails with the manual-link error. */
  lemma ManualLinksAreProtected(
    st: EmpiState, ids: IdMap, refOf: Pid -> string, person: ResourceId, target: ResourceId,
    result: MatchResult, ctx: Option<TxContext>, now: Time)
    requires Valid(st.store) && person in ids && target in ids
    requires var k := (ids[person], ids[target]); k in st.store.links && st.store.links[k].linkSource == Some(Manual)
    ensures var r := UpdateLink(st, ids, refOf, person, target, result, Auto, ctx, now);
      || r == Ok((st, ctx))
      || r == Err(InternalError(ManualLinkMessage))
      || r == Err(InternalError(AutoNoMatchMessage))
    ensures var k := (ids[person], ids[target]);
      result != NoMatch
      && !(result == PossibleDuplicate && (IsNoMatchLink(StoredAt(st.store, k)) || IsNoMatchLink(StoredAt(st.store, (k.1, k.0))))) ==>
      UpdateLink(st, ids, refOf, person, target, result, Auto, ctx, now) == Err(InternalError(ManualLinkMessage))
  {
  }

  /** A NO_MATCH link between the two resources, stored either way round,
      makes an automatic POSSIBLE_DUPLICATE a silent no-op: no error, no new
      link, the table as it was. */
  lemma NoMatchBlocksPossibleDuplicate(
    st: EmpiState, ids: IdMap, refOf: Pid -> string, person: ResourceId, target: ResourceId,
    ctx: Option<TxContext>, now: Time)
    requires Valid(st.store) && person in ids && target in ids
    requires IsNoMatchLink(StoredAt(st.store, (ids[person], ids[target])))
          || IsNoMatchLink(StoredAt(st.store, (ids[target], ids[person])))
    ensures var r := UpdateLink(st, ids, refOf, person, target, PossibleDuplicate, Auto, ctx, now);
      && r == Ok((st, ctx))
      && Count(r.value.0.store) == Count(st.store)
  {
  }

  /** The first POSSIBLE_DUPLICATE between two unlinked persons creates
      exactly one link. */
  lemma FirstPossibleDuplicateCreatesOneLink(
    ids: IdMap, refOf: Pid -> string, person: ResourceId, target: ResourceId,
    persons: map<ResourceId, set<string>>, ctx: TxContext, now: Time)
    requires person in ids && target in ids
    ensures var r := UpdateLink(EmpiState(LinkStore(map[]), persons), ids, refOf, person, target, PossibleDuplicate, Auto, Some(ctx), now);
      && r.Ok?
      && Count(r.value.0.store) == 1
      && r.value.0.store.links[(ids[person], ids[target])].matchResult == Some(PossibleDuplicate)
  {
    var st := EmpiState(LinkStore(map[]), persons);
    var r := UpdateLink(st, ids, refOf, person, target, PossibleDuplicate, Auto, Some(ctx), now);
    assert r.value.0 != st by {
      assert (ids[person], ids[target]) in r.value.0.store.links;
    }
  }

  /** A person with exactly one projected link, whose key is `k`. */
  lemma SingleLinkProjection(s: LinkStore, ids: IdMap, person: ResourceId, refOf: Pid -> string, k: (Pid, Pid))
    requires Valid(s) && s.links.Keys == {k} && person in ids && ids[person] == k.0
    ensures Projected(s.links[k].matchResult) ==> Projection(s, ids, person, refOf) == {refOf(k.1)}
    ensures !Projected(s.links[k].matchResult) ==> Projection(s, ids, person, refOf) == {}
  {
    assert s.links.Values == {s.links[k]};
  }

  /** testCreateRemoveLink: an automatic POSSIBLE_MATCH creates the link and
      shows it on the person; a manual NO_MATCH on the same pair updates that
      link in place (still one row) and removes it from the person. */
  lemma ManualNoMatchOverridesInPlace(
    ids: IdMap, refOf: Pid -> string, person: ResourceId, target: ResourceId,
    persons: map<ResourceId, set<string>>, ctx: TxContext, now: Time)
    requires person in ids && target in ids
    ensures var r1 := UpdateLink(EmpiState(LinkStore(map[]), persons), ids, refOf, person, target, PossibleMatch, Auto, Some(ctx), now);
      && r1.Ok?
      && Count(r1.value.0.store) == 1
      && |r1.value.0.personLinks[person]| == 1
      && var r2 := UpdateLink(r1.value.0, ids, refOf, person, target, NoMatch, Manual, r1.value.1, now + 1);
      && r2.Ok?
      && Count(r2.value.0.store) == 1
      && r2.value.0.personLinks[person] == {}
  {
    var k := (ids[person], ids[target]);
    var st0 := EmpiState(LinkStore(map[]), persons);
    var r1 := UpdateLink(st0, ids, refOf, person, target, PossibleMatch, Auto, Some(ctx), now);
    var st1 := r1.value.0;
    assert st1.store.links.Keys == {k};
    SingleLinkProjection(st1.store, ids, person, refOf, k);
    var r2 := UpdateLink(st1, ids, refOf, person, target, NoMatch, Manual, r1.value.1, now + 1);
    var st2 := r2.value.0;
    assert st2.store.links.Keys == {k};
    SingleLinkProjection(st2.store, ids, person, refOf, k);
  }

  /** A person with two links, one shown and one hidden. */
  lemma TwoLinkProjection(s: LinkStore, ids: IdMap, person: ResourceId, refOf: Pid -> string, k1: (Pid, Pid), k2: (Pid, Pid))
    requires Valid(s) && s.links.Keys == {k1, k2} && person in ids && k1.0 == ids[person] && k2.0 == ids[person]
    requires Projected(s.links[k1].matchResult) && !Projected(s.links[k2].matchResult)
    ensures Projection(s, ids, person, refOf) == {refOf(k1.1)}
  {
    assert s.links.Values == {s.links[k1], s.links[k2]};
    var proj := Projection(s, ids, person, refOf);
    assert refOf(k1.1) in proj;
    forall x | x in proj ensures x == refOf(k1.1) {
      var l :| l in s.links.Values && ShownFor(l, ids[person]) && refOf(l.targetPid.value) == x;
      assert l == s.links[k1];
    }
  }

  /** testSyncDoesNotSyncNoMatchLinks: with a MATCH link to one patient and a
      NO_MATCH link to another, sync shows exactly the first patient. */
  lemma SyncDoesNotSyncNoMatchLinks(
    ids: IdMap, refOf: Pid -> string, person: ResourceId, patient1: ResourceId, patient2: ResourceId,
    persons: map<ResourceId, set<string>>, ctx: TxContext, now: Time)
    requires person in ids && patient1 in ids && patient2 in ids
    requires ids[patient1] != ids[patient2]
    ensures
      var (s1, _, ctx1) := CreateOrUpdateLinkEntity(LinkStore(map[]), ids, person, patient1, Match, Manual, Some(ctx), now);
      var (s2, _, _) := CreateOrUpdateLinkEntity(s1, ids, person, patient2, NoMatch, Manual, Some(ctx1), now + 1);
      SyncEmpiLinksToPersonLinks(EmpiState(s2, persons), ids, refOf, person).personLinks[person] == {refOf(ids[patient1])}
  {
    var k1 := (ids[person], ids[patient1]);
    var k2 := (ids[person], ids[patient2]);
    var (s1, _, ctx1) := CreateOrUpdateLinkEntity(LinkStore(map[]), ids, person, patient1, Match, Manual, Some(ctx), now);
    var (s2, _, _) := CreateOrUpdateLinkEntity(s1, ids, person, patient2, NoMatch, Manual, Some(ctx1), now + 1);
    assert s1.links.Keys == {k1};
    assert s2.links.Keys == {k1, k2};
    TwoLinkProjection(s2, ids, person, refOf, k1, k2);
  }

  // ---- the projection invariant ----

  /** A person's projection reads only the rows whose person is that
      person's pid. */
  lemma ProjectionReadsOnlyOwnRows(s1: LinkStore, s2: LinkStore, ids: IdMap, q: ResourceId, refOf: Pid -> string)
    requires Valid(s1) && Valid(s2) && q in ids
    requires forall k: (Pid, Pid) :: k.0 == ids[q] ==> StoredAt(s1, k) == StoredAt(s2, k)
    ensures Projection(s1, ids, q, refOf) == Projection(s2, ids, q, refOf)
  {
    forall x | x in Projection(s1, ids, q, refOf) ensures x in Projection(s2, ids, q, refOf) {
      var l :| l in s1.links.Values && ShownFor(l, ids[q]) && refOf(l.targetPid.value) == x;
      var k :| k in s1.links && s1.links[k] == l;
      assert StoredAt(s1, k) == StoredAt(s2, k);
    }
    forall x | x in Projection(s2, ids, q, refOf) ensures x in Projection(s1, ids, q, refOf) {
      var l :| l in s2.links.Values && ShownFor(l, ids[q]) && refOf(l.targetPid.value) == x;
      var k :| k in s2.links && s2.links[k] == l;
      assert StoredAt(s1, k) == StoredAt(s2, k);
    }
  }

  /** A change confined to the rows of one person's pid, after which that
      person's list is re-projected, keeps every link list in agreement. */
  lemma ChangeOfOnePersonKeepsConsistent(st: EmpiState, st': EmpiState, ids: IdMap, refOf: Pid -> string, person: ResourceId)
    requires Valid(st.store) && Valid(st'.store) && InjectiveIds(ids) && Consistent(st, ids, refOf)
    requires person in ids
    requires forall k: (Pid, Pid) :: k.0 != ids[person] ==> StoredAt(st'.store, k) == StoredAt(st.store, k)
    requires forall q :: q != person ==> (q in st'.personLinks <==> q in st.personLinks)
    requires forall q :: q != person && q in st.personLinks ==> st'.personLinks[q] == st.personLinks[q]
    requires person in st'.personLinks ==> st'.personLinks[person] == Projection(st'.store, ids, person, refOf)
    ensures Consistent(st', ids, refOf)
  {
    forall q | q in st'.personLinks && q != person && q in ids
      ensures Projection(st'.store, ids, q, refOf) == Projection(st.store, ids, q, refOf)
    {
      assert ids[q] != ids[person];
      ProjectionReadsOnlyOwnRows(st.store, st'.store, ids, q, refOf);
    }
  }

  /** `updateLink` keeps every person's link list in agreement with the link
      table, provided resources and pids correspond one to one. */
  lemma UpdateLinkKeepsProjectionConsistent(
    st: EmpiState, ids: IdMap, refOf: Pid -> string, person: ResourceId, target: ResourceId,
    result: MatchResult, source: LinkSource, ctx: Option<TxContext>, now: Time)
    requires Valid(st.store) && InjectiveIds(ids) && Consistent(st, ids, refOf)
    ensures var r := UpdateLink(st, ids, refOf, person, target, result, source, ctx, now);
      r.Ok? ==> Consistent(r.value.0, ids, refOf)
  {
    var r := UpdateLink(st, ids, refOf, person, target, result, source, ctx, now);
    if r.Ok? && r.value.0 != st {
      ChangeOfOnePersonKeepsConsistent(st, r.value.0, ids, refOf, person);
    }
  }

  /** The person's projection shows the target of its link to `t` exactly
      when that link is MATCH or POSSIBLE_MATCH (references being one to
      one). */
  lemma PairShownExactlyWhenProjected(s: LinkStore, ids: IdMap, refOf: Pid -> string, person: ResourceId, t: Pid)
    requires Valid(s) && person in ids && InjectiveRefs(refOf)
    requires (ids[person], t) in s.links
    ensures refOf(t) in Projection(s, ids, person, refOf) <==> Projected(s.links[(ids[person], t)].matchResult)
  {
    var p := ids[person];
    var proj := Projection(s, ids, person, refOf);
    if !Projected(s.links[(p, t)].matchResult) {
      forall l | l in s.links.Values && ShownFor(l, p)
        ensures l.targetPid.value != t
      {
        var k :| k in s.links && s.links[k] == l;
        assert l.targetPid == Some(k.1) && k.0 == p;
      }
    } else {
      assert s.links[(p, t)] in s.links.Values;
    }
  }

  /** An applied request is exactly create-or-update followed by sync. */
  lemma UpdateLinkWhenApplied(
    st: EmpiState, ids: IdMap, refOf: Pid -> string, person: ResourceId, target: ResourceId,
    result: MatchResult, source: LinkSource, ctx: TxContext, now: Time)
    requires Valid(st.store) && person in ids && target in ids
    requires Decide(StoredAt(st.store, (ids[person], ids[target])), StoredAt(st.store, (ids[target], ids[person])),
                    result, source) == Apply
    ensures var w := CreateOrUpdateLinkEntity(st.store, ids, person, target, result, source, Some(ctx), now);
      UpdateLink(st, ids, refOf, person, target, result, source, Some(ctx), now)
        == Ok((SyncEmpiLinksToPersonLinks(st.(store := w.0), ids, refOf, person), Some(w.2)))
  {
    var p := ids[person];
    var t := ids[target];
    assert GetLinkByPersonPidAndTargetPid(st.store, Some(p), Some(t)) == StoredAt(st.store, (p, t));
    assert GetLinkByPersonPidAndTargetPid(st.store, Some(t), Some(p)) == StoredAt(st.store, (t, p));
  }

  /** After an applied request the person shows the target exactly when the
      new result is MATCH or POSSIBLE_MATCH (references being one to one). */
  lemma ProjectionFollowsResult(
    st: EmpiState, ids: IdMap, refOf: Pid -> string, person: ResourceId, target: ResourceId,
    result: MatchResult, source: LinkSource, ctx: TxContext, now: Time)
    requires Valid(st.store) && person in ids && target in ids && InjectiveRefs(refOf)
    requires Decide(StoredAt(st.store, (ids[person], ids[target])), StoredAt(st.store, (ids[target], ids[person])),
                    result, source) == Apply
    ensures var r := UpdateLink(st, ids, refOf, person, target, result, source, Some(ctx), now);
      && r.Ok?
      && (refOf(ids[target]) in r.value.0.personLinks[person] <==> result == Match || result == PossibleMatch)
  {
    UpdateLinkWhenApplied(st, ids, refOf, person, target, result, source, ctx, now);
    var w := CreateOrUpdateLinkEntity(st.store, ids, person, target, result, source, Some(ctx), now);
    PairShownExactlyWhenProjected(w.0, ids, refOf, person, ids[target]);
  }
}

=== FILE: valueset_compose.dfy ===
/** How the ValueSet DAO shapes an expansion request before handing it to
    the terminology service, and what it does with the answer:
    include/exclude validation, the compose built for expand-by-identifier,
    the display filter injected into concept-free includes, the empty-compose
    check, and the display filter applied to the result.

    The expansion itself is done by an external validation-support chain; it
    is the parameter `engine`, which answers either an expansion or the
    error message of an outcome that holds none. */
module ValueSetCompose {
  import opened Common
  import opened ValueSetModel
  import opened ValueSetFilter

  const BlankUriMessage := "URI must not be blank or missing"
  const EmptyComposeMessage := "ValueSet does not have any compose.include or compose.import values, can not expand"

  /** The external expansion of a compose. */
  type Engine = Compose -> Result<Expansion, string>

  function NoSystemMessage(name: string): string
  {
    "ValueSet contains " + name + " criteria with no system defined"
  }

  /** A concept set that lists concepts or filters but names no system. */
  predicate LacksSystem(s: ConceptSet)
  {
    IsBlank(s.system) && !(ConceptsEmpty(s.concepts) && FiltersEmpty(s.filters))
  }

  /** `validateIncludes(name, list)`: the first concept set without a system
      but with concepts or filters makes the request invalid. */
  function ValidateIncludes(name: string, sets: seq<ConceptSet>): (r: Outcome<RequestError>)
    ensures r.Fail? <==> exists i :: 0 <= i < |sets| && LacksSystem(sets[i])
    ensures r.Fail? ==> r.error == InvalidRequest(NoSystemMessage(name))
  {
    if sets == [] then Pass
    else if LacksSystem(sets[0]) then Fail(InvalidRequest(NoSystemMessage(name)))
    else
      var r := ValidateIncludes(name, sets[1..]);
      assert (exists i :: 0 <= i < |sets[1..]| && LacksSystem(sets[1..][i]))
         <==> (exists i :: 0 <= i < |sets| && LacksSystem(sets[i])) by {
        if exists i :: 0 <= i < |sets| && LacksSystem(sets[i]) {
          var i :| 0 <= i < |sets| && LacksSystem(sets[i]);
          assert i > 0 && sets[1..][i - 1] == sets[i];
        }
      }
      r
  }

  /** `doExpand`: validate includes, then excludes, then ask the engine. */
  function DoExpand(c: Compose, engine: Engine): (r: Result<Expansion, RequestError>)
    ensures (exists i :: 0 <= i < |c.includes| && LacksSystem(c.includes[i])) ==>
      r == Err(InvalidRequest(NoSystemMessage("include")))
    ensures ((forall i :: 0 <= i < |c.includes| ==> !LacksSystem(c.includes[i]))
             && (exists i :: 0 <= i < |c.excludes| && LacksSystem(c.excludes[i]))) ==>
      r == Err(InvalidRequest(NoSystemMessage("exclude")))
    ensures r.Ok? <==>
      && (forall i :: 0 <= i < |c.includes| ==> !LacksSystem(c.includes[i]))
      && (forall i :: 0 <= i < |c.excludes| ==> !LacksSystem(c.excludes[i]))
      && engine(c).Ok?
    ensures r.Ok? ==> r.value == engine(c).value
    ensures (&& engine(c).Err?
             && (forall i :: 0 <= i < |c.includes| ==> !LacksSystem(c.includes[i]))
             && (forall i :: 0 <= i < |c.excludes| ==> !LacksSystem(c.excludes[i]))) ==>
      r == Err(InternalError(engine(c).error))
  {
    match ValidateIncludes("include", c.includes)
    case Fail(e) => Err(e)
    case Pass =>
      match ValidateIncludes("exclude", c.excludes)
      case Fail(e) => Err(e)
      case Pass =>
        match engine(c)
        case Err(m) => Err(InternalError(m))
        case Ok(e) => Ok(e)
  }

  /** An include that only imports the value set `uri`. */
  function ImportOf(uri: string): ConceptSet
  {
    ConceptSet(None, None, [], [], [Some(uri)])
  }

  /** An include holding only the filter `display = value`. */
  function DisplayOnlyInclude(value: string): ConceptSet
  {
    ConceptSet(None, None, [], [DisplayFilter(value)], [])
  }

  /** The value set `expandByIdentifier` builds: a blank URI is refused;
      otherwise one include imports the URI and, when the filter is not
      blank, a second include carries the display filter. */
  function BuildIdentifierValueSet(uri: Option<string>, filter: Option<string>): (r: Result<ValueSet, RequestError>)
    ensures r.Err? <==> IsBlank(uri)
    ensures r.Err? ==> r.error == InvalidRequest(BlankUriMessage)
    ensures r.Ok? ==>
      && r.value.url == uri
      && r.value.compose.excludes == []
      && |r.value.compose.includes| == (if IsNotBlank(filter) then 2 else 1)
      && r.value.compose.includes[0] == ImportOf(uri.value)
      && (IsNotBlank(filter) ==> r.value.compose.includes[1] == DisplayOnlyInclude(filter.value))
  {
    if IsBlank(uri) then Err(InvalidRequest(BlankUriMessage))
    else
      var includes := [ImportOf(uri.value)] + (if IsNotBlank(filter) then [DisplayOnlyInclude(filter.value)] else []);
      Ok(ValueSet(uri, Compose(includes, [])))
  }

  /** `expandByIdentifier(uri, filter)` as written (the paged overload differs
      only in passing offset and count on to the engine). */
  function ExpandByIdentifier(uri: Option<string>, filter: Option<string>, engine: Engine): (r: Result<Expansion, RequestError>)
    ensures IsBlank(uri) ==> r == Err(InvalidRequest(BlankUriMessage))
    ensures IsNotBlank(uri) && IsBlank(filter) ==>
      r == (if engine(Compose([ImportOf(uri.value)], [])).Ok?
            then Ok(engine(Compose([ImportOf(uri.value)], [])).value)
            else Err(InternalError(engine(Compose([ImportOf(uri.value)], [])).error)))
  {
    match BuildIdentifierValueSet(uri, filter)
    case Err(e) => Err(e)
    case Ok(vs) =>
      assert IsBlank(filter) ==> vs.compose.includes == [ImportOf(uri.value)];
      assert !LacksSystem(ImportOf(uri.value));
      DoExpand(vs.compose, engine)
  }

  /** The filter include built by `expandByIdentifier` names no system but
      has a filter, so its own include validation refuses it: with any
      non-blank URI and filter the call fails, whatever the engine. */
  lemma ExpandByIdentifierRejectsEveryFilter(uri: string, filter: string, engine: Engine)
    requires IsNotBlank(Some(uri)) && IsNotBlank(Some(filter))
    ensures ExpandByIdentifier(Some(uri), Some(filter), engine) == Err(InvalidRequest(NoSystemMessage("include")))
  {
    var vs := BuildIdentifierValueSet(Some(uri), Some(filter)).value;
    var inc := vs.compose.includes[1];
    assert !FilterIsEmpty(inc.filters[0]) by {
      assert !IsWhitespace("display"[0]);
    }
    assert LacksSystem(inc);
  }

  /** `expandByIdentifier` as evidently intended: expand the imported value
      set, then apply the display filter to the result, as `expand` does. */
  function ExpandByIdentifierFiltered(uri: Option<string>, filter: Option<string>, engine: Engine): (r: Result<Expansion, RequestError>)
    ensures IsBlank(uri) ==> r == Err(InvalidRequest(BlankUriMessage))
    ensures IsNotBlank(uri) ==> (r.Ok? <==> engine(Compose([ImportOf(uri.value)], [])).Ok?)
    ensures r.Ok? && IsNotBlank(filter) ==> AllMatch(r.value.contains, filter.value)
    ensures r.Ok? && IsNotBlank(filter) ==>
      r.value == FilterExpansion(engine(Compose([ImportOf(uri.value)], [])).value, filter.value)
    ensures IsBlank(filter) ==> r == ExpandByIdentifier(uri, filter, engine)
  {
    match BuildIdentifierValueSet(uri, None)
    case Err(e) => Err(e)
    case Ok(vs) =>
      assert vs.compose.includes == [ImportOf(uri.value)];
      assert !LacksSystem(ImportOf(uri.value));
      match DoExpand(vs.compose, engine)
      case Err(e) => Err(e)
      case Ok(e) => Ok(if IsNotBlank(filter) then FilterExpansion(e, filter.value) else e)
  }

  /** The injected display filter is never an empty filter. */
  lemma DisplayFilterIsNotEmpty(value: string)
    ensures !FilterIsEmpty(DisplayFilter(value))
  {
    assert !IsWhitespace("display"[0]);
  }

  /** Appending a display filter makes a filter list non-empty. */
  lemma FiltersWithDisplayAreNotEmpty(fs: seq<ConceptSetFilter>, value: string)
    ensures !FiltersEmpty(fs + [DisplayFilter(value)])
  {
    DisplayFilterIsNotEmpty(value);
    assert (fs + [DisplayFilter(value)])[|fs|] == DisplayFilter(value);
  }

  /** `addFilterIfPresent`: an include that lists no concepts gets the filter
      `display = filter` appended when the filter is not blank; any other
      include is returned as it was. Only the filter list can change, and
      an include is empty afterwards exactly when it was empty and there is
      no filter; it lacks a system afterwards exactly when it did before or
      it is a system-less, concept-free include that gained the filter. */
  function AddFilterIfPresent(filter: Option<string>, s: ConceptSet): (r: ConceptSet)
    ensures ConceptsEmpty(s.concepts) && IsNotBlank(filter) ==>
      r == s.(filters := s.filters + [DisplayFilter(filter.value)])
    ensures !ConceptsEmpty(s.concepts) || IsBlank(filter) ==> r == s
    ensures r.system == s.system && r.version == s.version && r.concepts == s.concepts && r.valueSets == s.valueSets
    ensures s.filters <= r.filters && |r.filters| <= |s.filters| + 1
    ensures ConceptSetIsEmpty(r) <==> ConceptSetIsEmpty(s) && IsBlank(filter)
    ensures LacksSystem(r) <==>
      LacksSystem(s) || (IsBlank(s.system) && ConceptsEmpty(s.concepts) && IsNotBlank(filter))
  {
    if ConceptsEmpty(s.concepts) && IsNotBlank(filter) then
      FiltersWithDisplayAreNotEmpty(s.filters, filter.value);
      s.(filters := s.filters + [DisplayFilter(filter.value)])
    else s
  }

  /** The compose `expand` sends to the engine: every include of the source,
      each with the filter injected when applicable, then the excludes. */
  function ExpandRequest(source: ValueSet, filter: Option<string>): (r: Compose)
    ensures |r.includes| == |source.compose.includes|
    ensures forall i :: 0 <= i < |r.includes| ==>
      r.includes[i] == AddFilterIfPresent(filter, source.compose.includes[i])
    ensures r.excludes == source.compose.excludes
    ensures forall i :: 0 <= i < |r.includes| ==>
      (LacksSystem(r.includes[i]) <==>
        || LacksSystem(source.compose.includes[i])
        || (IsBlank(source.compose.includes[i].system) && ConceptsEmpty(source.compose.includes[i].concepts)
            && IsNotBlank(filter)))
    ensures forall i :: 0 <= i < |r.includes| ==>
      (ConceptSetIsEmpty(r.includes[i]) <==> ConceptSetIsEmpty(source.compose.includes[i]) && IsBlank(filter))
  {
    var inc := source.compose.includes;
    Compose(seq(|inc|, i requires 0 <= i < |inc| => AddFilterIfPresent(filter, inc[i])), source.compose.excludes)
  }

  /** `expand(source, filter)` (and its paged overload): build the request,
      refuse it when its includes are empty, expand it, and prune the result
      by display when the filter is not blank. */
  function Expand(source: ValueSet, filter: Option<string>, engine: Engine): (r: Result<Expansion, RequestError>)
    ensures source.compose.includes == [] ==> r == Err(InvalidRequest(EmptyComposeMessage))
    ensures r == Err(InvalidRequest(EmptyComposeMessage)) <==>
      forall i :: 0 <= i < |source.compose.includes| ==> ConceptSetIsEmpty(AddFilterIfPresent(filter, source.compose.includes[i]))
    ensures r.Ok? ==> engine(ExpandRequest(source, filter)).Ok?
    ensures r.Ok? && IsNotBlank(filter) ==> AllMatch(r.value.contains, filter.value)
    ensures r.Ok? && IsBlank(filter) ==> r.value == engine(ExpandRequest(source, filter)).value
    ensures r.Ok? && IsNotBlank(filter) ==>
      r.value == FilterExpansion(engine(ExpandRequest(source, filter)).value, filter.value)
    ensures !ComposeIsEmpty(Compose(ExpandRequest(source, filter).includes, [])) ==>
      (r.Ok? <==> DoExpand(ExpandRequest(source, filter), engine).Ok?)
    ensures !ComposeIsEmpty(Compose(ExpandRequest(source, filter).includes, []))
            && DoExpand(ExpandRequest(source, filter), engine).Err? ==>
      r == DoExpand(ExpandRequest(source, filter), engine)
  {
    var request := ExpandRequest(source, filter);
    if ComposeIsEmpty(Compose(request.includes, [])) then Err(InvalidRequest(EmptyComposeMessage))
    else
      match DoExpand(request, engine)
      case Err(e) =>
        assert e != InvalidRequest(EmptyComposeMessage);
        Err(e)
      case Ok(e) => Ok(if IsNotBlank(filter) then FilterExpansion(e, filter.value) else e)
  }

  /** The same shape of failure in `expand`: a source include that only
      imports another value set gets the display filter, has no system, and
      is refused by the include validation. */
  lemma ExpandFilterOnImportOnlyIncludeFails(uri: string, filter: string, engine: Engine)
    requires IsNotBlank(Some(filter))
    ensures Expand(ValueSet(None, Compose([ImportOf(uri)], [])), Some(filter), engine)
         == Err(InvalidRequest(NoSystemMessage("include")))
  {
    var source := ValueSet(None, Compose([ImportOf(uri)], []));
    var request := ExpandRequest(source, Some(filter));
    assert request.includes[0] == ImportOf(uri).(filters := [DisplayFilter(filter)]);
    assert !FilterIsEmpty(DisplayFilter(filter)) by {
      assert !IsWhitespace("display"[0]);
    }
    assert request.includes[0].filters[0] == DisplayFilter(filter);
    assert !ConceptSetIsEmpty(request.includes[0]);
    assert LacksSystem(request.includes[0]);
  }

  /** `addFilterIfPresent` as evidently intended: the display filter goes
      only into a concept-free include that names a system, since the
      include validation refuses a filter without one. The expansion is
      still narrowed by display afterwards. */
  function AddFilterIfPresentWithSystem(filter: Option<string>, s: ConceptSet): (r: ConceptSet)
    ensures r.system == s.system && r.version == s.version && r.concepts == s.concepts && r.valueSets == s.valueSets
    ensures s.filters <= r.filters && |r.filters| <= |s.filters| + 1
    ensures LacksSystem(r) <==> LacksSystem(s)
    ensures ConceptSetIsEmpty(r) <==> ConceptSetIsEmpty(s)
    ensures IsNotBlank(s.system) ==> r == AddFilterIfPresent(filter, s)
  {
    if IsNotBlank(s.system) then AddFilterIfPresent(filter, s) else s
  }

  /** The request of the corrected `expand`. */
  function ExpandRequestWithSystemFilter(source: ValueSet, filter: Option<string>): (r: Compose)
    ensures |r.includes| == |source.compose.includes|
    ensures forall i :: 0 <= i < |r.includes| ==> (LacksSystem(r.includes[i]) <==> LacksSystem(source.compose.includes[i]))
    ensures forall i :: 0 <= i < |r.includes| ==> (ConceptSetIsEmpty(r.includes[i]) <==> ConceptSetIsEmpty(source.compose.includes[i]))
    ensures r.excludes == source.compose.excludes
  {
    var inc := source.compose.includes;
    Compose(seq(|inc|, i requires 0 <= i < |inc| => AddFilterIfPresentWithSystem(filter, inc[i])), source.compose.excludes)
  }

  /** `expand` as evidently intended: the filter never makes a valid source
      invalid; the request is refused exactly when the source's own includes
      are empty or fail validation, and a filtered success is the engine's
      expansion pruned by display. */
  function ExpandFiltered(source: ValueSet, filter: Option<string>, engine: Engine): (r: Result<Expansion, RequestError>)
    ensures r == Err(InvalidRequest(EmptyComposeMessage)) <==>
      forall i :: 0 <= i < |source.compose.includes| ==> ConceptSetIsEmpty(source.compose.includes[i])
    ensures (exists i :: 0 <= i < |source.compose.includes| && LacksSystem(source.compose.includes[i])) ==>
      r == Err(InvalidRequest(NoSystemMessage("include")))
    ensures r.Ok? ==> engine(ExpandRequestWithSystemFilter(source, filter)).Ok?
    ensures r.Ok? && IsNotBlank(filter) ==>
      r.value == FilterExpansion(engine(ExpandRequestWithSystemFilter(source, filter)).value, filter.value)
    ensures r.Ok? && IsBlank(filter) ==> r.value == engine(ExpandRequestWithSystemFilter(source, filter)).value
    ensures && (exists i :: 0 <= i < |source.compose.includes| && !ConceptSetIsEmpty(source.compose.includes[i]))
            && (forall i :: 0 <= i < |source.compose.includes| ==> !LacksSystem(source.compose.includes[i]))
            && (forall i :: 0 <= i < |source.compose.excludes| ==> !LacksSystem(source.compose.excludes[i])) ==>
      && (r.Ok? <==> engine(ExpandRequestWithSystemFilter(source, filter)).Ok?)
      && (r.Err? ==> r == Err(InternalError(engine(ExpandRequestWithSystemFilter(source, filter)).error)))
  {
    var request := ExpandRequestWithSystemFilter(source, filter);
    if ComposeIsEmpty(Compose(request.includes, [])) then Err(InvalidRequest(EmptyComposeMessage))
    else
      match DoExpand(request, engine)
      case Err(e) =>
        assert e != InvalidRequest(EmptyComposeMessage);
        Err(e)
      case Ok(e) => Ok(if IsNotBlank(filter) then FilterExpansion(e, filter.value) else e)
  }

  /** The corrected `expand` on an include that only imports a named value set:
      with any filter it succeeds exactly when the engine expands the
      request, and then every surviving entry matches the filter. */
  lemma ExpandFilteredOnImportOnlyInclude(uri: string, filter: string, engine: Engine)
    requires IsNotBlank(Some(uri)) && IsNotBlank(Some(filter))
    ensures var source := ValueSet(None, Compose([ImportOf(uri)], []));
      var r := ExpandFiltered(source, Some(filter), engine);
      && (r.Ok? <==> engine(ExpandRequestWithSystemFilter(source, Some(filter))).Ok?)
      && (r.Ok? ==> AllMatch(r.value.contains, filter))
  {
    var source := ValueSet(None, Compose([ImportOf(uri)], []));
    var request := ExpandRequestWithSystemFilter(source, Some(filter));
    assert request.includes == [ImportOf(uri)];
    assert !ConceptSetIsEmpty(ImportOf(uri)) by {
      assert ImportOf(uri).valueSets[0] == Some(uri);
    }
    assert !LacksSystem(ImportOf(uri));
    assert !ComposeIsEmpty(Compose(request.includes, [])) by {
      assert Compose(request.includes, []).includes[0] == ImportOf(uri);
    }
    assert request.excludes == [];
    assert DoExpand(request, engine).Ok? <==> engine(request).Ok?;
  }
}

=== FILE: valueset_filter.dfy ===
/** The display filter that `expand` applies to a finished expansion
    (`applyFilter`): entries whose display is blank or does not contain the
    filter text, ignoring case, are removed level by level, and a non-null
    `total` loses one for every removed entry.

    The recursion also runs on the children of an entry that was removed, so
    non-matching entries below a removed entry are counted too, while
    matching entries below a removed entry disappear without being counted.

    `Prune` and `Removed` are the reference definitions; `ApplyFilter` is the
    in-place loop of the source, proved to compute them. */
module ValueSetFilter {
  import opened Common
  import opened ValueSetModel

  /** An entry survives the filter. */
  predicate Keep(c: Contains, f: string)
  {
    IsNotBlank(c.display) && ContainsIgnoreCase(c.display.value, f)
  }

  /** The surviving entries of one level, in their original order, each with
      its own `contains` filtered in turn. */
  function Prune(cs: seq<Contains>, f: string): seq<Contains>
  {
    if cs == [] then []
    else (if Keep(cs[0], f) then [cs[0].(contains := Prune(cs[0].contains, f))] else []) + Prune(cs[1..], f)
  }

  /** How many times the filter decrements the total: once for every entry
      that fails it, at any depth, including below a failing entry. */
  function Removed(cs: seq<Contains>, f: string): nat
  {
    if cs == [] then 0
    else (if Keep(cs[0], f) then 0 else 1) + Removed(cs[0].contains, f) + Removed(cs[1..], f)
  }

  /** `total - n` when the total is set; an unset total stays unset. */
  function Decrement(total: Option<int>, n: nat): (r: Option<int>)
    ensures r.None? <==> total.None?
    ensures r.Some? ==> r.value + n == total.value
  {
    if total.None? then None else Some(total.value - n)
  }

  /** The expansion after `applyFilter`. */
  function FilterExpansion(e: Expansion, f: string): (r: Expansion)
    ensures AllMatch(r.contains, f)
    ensures r.total.Some? <==> e.total.Some?
    ensures r.total.Some? ==> r.total.value == e.total.value - Rejected(Flatten(e.contains), f)
  {
    PruneSurvivorsMatch(e.contains, f);
    RemovedCountsEveryRejectedEntry(e.contains, f);
    Expansion(Decrement(e.total, Removed(e.contains, f)), Prune(e.contains, f))
  }

  lemma {:induction false} PruneAppend(a: seq<Contains>, b: seq<Contains>, f: string)
    ensures Prune(a + b, f) == Prune(a, f) + Prune(b, f)
  {
    if a == [] {
      assert a + b == b;
    } else {
      var ab := a + b;
      assert ab[0] == a[0] && ab[1..] == a[1..] + b;
      PruneAppend(a[1..], b, f);
      var h := if Keep(a[0], f) then [a[0].(contains := Prune(a[0].contains, f))] else [];
      assert Prune(ab, f) == h + Prune(ab[1..], f);
      assert Prune(a, f) == h + Prune(a[1..], f);
    }
  }

  lemma {:induction false} RemovedAppend(a: seq<Contains>, b: seq<Contains>, f: string)
    ensures Removed(a + b, f) == Removed(a, f) + Removed(b, f)
  {
    if a == [] {
      assert a + b == b;
    } else {
      var ab := a + b;
      assert ab[0] == a[0] && ab[1..] == a[1..] + b;
      RemovedAppend(a[1..], b, f);
    }
  }

  /** One more entry of the input, seen by the reference definitions. */
  lemma PruneStep(cs: seq<Contains>, k: nat, f: string)
    requires k < |cs|
    ensures Prune(cs[..k + 1], f)
         == Prune(cs[..k], f) + (if Keep(cs[k], f) then [cs[k].(contains := Prune(cs[k].contains, f))] else [])
    ensures Removed(cs[..k + 1], f) == Removed(cs[..k], f) + (if Keep(cs[k], f) then 0 else 1) + Removed(cs[k].contains, f)
  {
    assert cs[..k + 1] == cs[..k] + [cs[k]];
    PruneAppend(cs[..k], [cs[k]], f);
    RemovedAppend(cs[..k], [cs[k]], f);
    assert [cs[k]][1..] == [];
  }

  /** Dropping or replacing the element after `done` in `done + [x] + rest`
      leaves `done + piece + rest`, where `piece` is empty or the
      replacement. */
  lemma SpliceAt<T>(done: seq<T>, x: T, rest: seq<T>, piece: seq<T>, cs: seq<T>, cs': seq<T>)
    requires cs == done + [x] + rest
    requires |piece| <= 1
    requires cs' == if |piece| == 1 then cs[|done| := piece[0]] else cs[..|done|] + cs[|done| + 1..]
    ensures cs' == done + piece + rest
  {
    if |piece| == 1 {
      assert piece == [piece[0]];
    } else {
      assert cs[..|done|] == done;
      assert cs[|done| + 1..] == rest;
    }
  }

  /** One turn of the loop of `applyFilter`, seen by the reference
      definitions: dropping or replacing the entry after the pruned prefix
      `done` extends that prefix by one input entry. */
  lemma LoopStep(contains: seq<Contains>, f: string, k: nat, done: seq<Contains>,
                 cs: seq<Contains>, cs': seq<Contains>, piece: seq<Contains>)
    requires k < |contains|
    requires done == Prune(contains[..k], f)
    requires cs == done + contains[k..]
    requires piece == if Keep(contains[k], f) then [contains[k].(contains := Prune(contains[k].contains, f))] else []
    requires cs' == if |piece| == 1 then cs[|done| := piece[0]] else cs[..|done|] + cs[|done| + 1..]
    ensures done + piece == Prune(contains[..k + 1], f)
    ensures cs' == done + piece + contains[k + 1..]
    ensures Removed(contains[..k + 1], f)
         == Removed(contains[..k], f) + |[contains[k]]| - |piece| + Removed(contains[k].contains, f)
  {
    var next := contains[k];
    var rest := contains[k + 1..];
    assert contains[k..] == [next] + rest;
    PruneStep(contains, k, f);
    SpliceAt(done, next, rest, piece, cs, cs');
  }

  /** `applyFilter`, written as the source's index loop: a failing entry is
      removed and the index stays put, the total is decremented, and in every
      case the loop recurses into the entry's own `contains`. */
  method ApplyFilter(total: Option<int>, contains: seq<Contains>, filter: string)
    returns (total': Option<int>, contains': seq<Contains>)
    ensures contains' == Prune(contains, filter)
    ensures total' == Decrement(total, Removed(contains, filter))
    decreases contains
  {
    var cs := contains;
    var t := total;
    var idx := 0;
    ghost var k := 0;
    ghost var done := [];
    ghost var removed := 0;
    while idx < |cs|
      invariant 0 <= k <= |contains|
      invariant done == Prune(contains[..k], filter)
      invariant removed == Removed(contains[..k], filter)
      invariant cs == done + contains[k..]
      invariant idx == |done|
      invariant t.Some? <==> total.Some?
      invariant t.Some? ==> t.value == total.value - removed
      decreases |contains| - k
    {
      var next := cs[idx];
      assert next == contains[k];
      if Keep(next, filter) {
        var t', kids := ApplyFilter(t, next.contains, filter);
        LoopStep(contains, filter, k, done, cs, cs[idx := next.(contains := kids)], [next.(contains := kids)]);
        cs := cs[idx := next.(contains := kids)];
        t := t';
        done := done + [next.(contains := kids)];
        removed := removed + Removed(next.contains, filter);
      } else {
        LoopStep(contains, filter, k, done, cs, cs[..idx] + cs[idx + 1..], []);
        cs := cs[..idx] + cs[idx + 1..];
        idx := idx - 1;
        if t.Some? {
          t := Some(t.value - 1);
        }
        var t', _ := ApplyFilter(t, next.contains, filter);
        t := t';
        removed := removed + 1 + Removed(next.contains, filter);
      }
      idx := idx + 1;
      k := k + 1;
    }
    assert contains[..k] == contains;
    total', contains' := t, cs;
  }

  // ---- what the filter guarantees ----

  /** Every entry at every level is kept by the filter. */
  predicate AllMatch(cs: seq<Contains>, f: string)
  {
    forall i :: 0 <= i < |cs| ==> Keep(cs[i], f) && AllMatch(cs[i].contains, f)
  }

  /** Every surviving entry, at every level, has a non-blank display that
      contains the filter text. */
  lemma {:induction false} PruneSurvivorsMatch(cs: seq<Contains>, f: string)
    ensures AllMatch(Prune(cs, f), f)
  {
    if cs != [] {
      PruneSurvivorsMatch(cs[0].contains, f);
      PruneSurvivorsMatch(cs[1..], f);
    }
  }

  /** A tree that already passes is left as it is and costs nothing. */
  lemma {:induction false} PruneOfMatchingIsIdentity(cs: seq<Contains>, f: string)
    requires AllMatch(cs, f)
    ensures Prune(cs, f) == cs
    ensures Removed(cs, f) == 0
  {
    if cs != [] {
      assert Keep(cs[0], f) && AllMatch(cs[0].contains, f);
      PruneOfMatchingIsIdentity(cs[0].contains, f);
      assert AllMatch(cs[1..], f) by {
        forall i | 0 <= i < |cs[1..]| ensures Keep(cs[1..][i], f) && AllMatch(cs[1..][i].contains, f) {
          assert cs[1..][i] == cs[i + 1];
        }
      }
      PruneOfMatchingIsIdentity(cs[1..], f);
      assert cs == [cs[0]] + cs[1..];
    }
  }

  /** Filtering twice is filtering once, and the second pass leaves the
      total alone. */
  lemma FilterIsIdempotent(e: Expansion, f: string)
    ensures FilterExpansion(FilterExpansion(e, f), f) == FilterExpansion(e, f)
  {
    var once := FilterExpansion(e, f);
    PruneOfMatchingIsIdentity(once.contains, f);
  }

  /** An entry stripped of its children: what "the same entry" means across
      levels that are filtered independently. */
  function Head(c: Contains): Contains
  {
    c.(contains := [])
  }

  function Heads(cs: seq<Contains>): (r: seq<Contains>)
    ensures |r| == |cs|
    ensures forall i :: 0 <= i < |cs| ==> r[i] == Head(cs[i])
  {
    if cs == [] then [] else [Head(cs[0])] + Heads(cs[1..])
  }

  /** `a` can be obtained from `b` by deleting elements. */
  predicate IsSubsequence<T(==)>(a: seq<T>, b: seq<T>)
    decreases |b|
  {
    if a == [] then true
    else if b == [] then false
    else (a[0] == b[0] && IsSubsequence(a[1..], b[1..])) || IsSubsequence(a, b[1..])
  }

  /** Survivors keep their relative order. */
  lemma {:induction false} PruneKeepsOrder(cs: seq<Contains>, f: string)
    ensures IsSubsequence(Heads(Prune(cs, f)), Heads(cs))
  {
    if cs != [] {
      PruneKeepsOrder(cs[1..], f);
      var rest := Prune(cs[1..], f);
      assert Heads(cs)[1..] == Heads(cs[1..]);
      if Keep(cs[0], f) {
        var p := Prune(cs, f);
        assert p == [cs[0].(contains := Prune(cs[0].contains, f))] + rest;
        assert p[1..] == rest;
        assert Heads(p)[1..] == Heads(rest);
        assert Heads(p)[0] == Head(cs[0]);
      } else {
        assert Prune(cs, f) == rest;
      }
    }
  }

  /** No passing entry of a level is lost from that level. */
  lemma {:induction false} PruneKeepsEveryMatch(cs: seq<Contains>, f: string, i: nat)
    requires i < |cs| && Keep(cs[i], f)
    ensures cs[i].(contains := Prune(cs[i].contains, f)) in Prune(cs, f)
  {
    if i > 0 {
      PruneKeepsEveryMatch(cs[1..], f, i - 1);
    }
  }

  /** All entries of a tree, each before its children. */
  function Flatten(cs: seq<Contains>): seq<Contains>
  {
    if cs == [] then [] else [cs[0]] + Flatten(cs[0].contains) + Flatten(cs[1..])
  }

  /** How many entries of a flat list fail the filter. */
  function Rejected(xs: seq<Contains>, f: string): nat
  {
    if xs == [] then 0 else (if Keep(xs[0], f) then 0 else 1) + Rejected(xs[1..], f)
  }

  lemma {:induction false} RejectedAppend(a: seq<Contains>, b: seq<Contains>, f: string)
    ensures Rejected(a + b, f) == Rejected(a, f) + Rejected(b, f)
  {
    if a != [] {
      assert (a + b)[1..] == a[1..] + b;
      RejectedAppend(a[1..], b, f);
    } else {
      assert a + b == b;
    }
  }

  /** The total goes down by the number of failing entries anywhere in the
      tree, below removed entries included. */
  lemma {:induction false} RemovedCountsEveryRejectedEntry(cs: seq<Contains>, f: string)
    ensures Removed(cs, f) == Rejected(Flatten(cs), f)
  {
    if cs != [] {
      RemovedCountsEveryRejectedEntry(cs[0].contains, f);
      RemovedCountsEveryRejectedEntry(cs[1..], f);
      RejectedAppend([cs[0]], Flatten(cs[0].contains), f);
      RejectedAppend([cs[0]] + Flatten(cs[0].contains), Flatten(cs[1..]), f);
      assert [cs[0]][1..] == [];
    }
  }

  /** The number of entries in a tree. */
  function Size(cs: seq<Contains>): nat
  {
    |Flatten(cs)|
  }

  /** What is removed and what remains never add up to more than there was;
      they add up to less exactly when a passing entry sat below a failing
      one, so a total that counted every entry can end above the number of
      entries left. */
  lemma {:induction false} SurvivorsAndRemovedBoundedBySize(cs: seq<Contains>, f: string)
    ensures Size(Prune(cs, f)) + Removed(cs, f) <= Size(cs)
  {
    if cs != [] {
      SurvivorsAndRemovedBoundedBySize(cs[0].contains, f);
      SurvivorsAndRemovedBoundedBySize(cs[1..], f);
      var kids := Prune(cs[0].contains, f);
      var rest := Prune(cs[1..], f);
      if Keep(cs[0], f) {
        var h := cs[0].(contains := kids);
        assert Prune(cs, f) == [h] + rest;
        FlattenCons(h, rest);
      } else {
        assert Prune(cs, f) == rest;
      }
      FlattenCons(cs[0], cs[1..]);
    }
  }

  lemma FlattenCons(h: Contains, rest: seq<Contains>)
    ensures |Flatten([h] + rest)| == 1 + |Flatten(h.contains)| + |Flatten(rest)|
  {
    assert ([h] + rest)[0] == h;
    assert ([h] + rest)[1..] == rest;
  }

  /** Filtering a level that holds one entry. */
  lemma PruneSingleton(c: Contains, f: string)
    ensures Prune([c], f) == (if Keep(c, f) then [c.(contains := Prune(c.contains, f))] else [])
    ensures Removed([c], f) == (if Keep(c, f) then 0 else 1) + Removed(c.contains, f)
  {
    assert [c][1..] == [];
  }

  /** A passing entry below a failing one: the result is empty, yet the
      total of 2 only drops to 1. */
  lemma NestedSurvivorIsDroppedUncounted()
    ensures var child := Contains(None, Some("b"), Some("Liver"), []);
            var parent := Contains(None, Some("a"), Some("Heart"), [child]);
            var e := FilterExpansion(Expansion(Some(2), [parent]), "liver");
            e.contains == [] && e.total == Some(1)
  {
    var child := Contains(None, Some("b"), Some("Liver"), []);
    var parent := Contains(None, Some("a"), Some("Heart"), [child]);
    assert Keep(child, "liver") by {
      assert !IsWhitespace("Liver"[0]);
      assert RegionMatchesIgnoreCase("Liver", "liver", 0);
      ContainsIgnoreCaseIsSomeRegion("Liver", "liver");
    }
    assert !Keep(parent, "liver") by {
      ContainsIgnoreCaseIsSomeRegion("Heart", "liver");
      forall i | 0 <= i <= |"Heart"| - |"liver"| ensures !RegionMatchesIgnoreCase("Heart", "liver", i) {
        assert ToLower("Heart"[0]) != ToLower("liver"[0]);
      }
    }
    PruneSingleton(child, "liver");
    PruneSingleton(parent, "liver");
  }
}

=== FILE: valueset_model.dfy ===
/** The parts of a DSTU3 ValueSet that the ValueSet DAO reads and builds:
    the compose (include and exclude concept sets, each with concepts,
    filters and imported value sets), the expansion's recursive `contains`
    tree, codings, and the result of `$validate-code`.

    "Empty" follows HAPI's element emptiness: a primitive is empty when it is
    blank, a composite when all of its parts are empty, and a list when
    every element of it is empty. */
module ValueSetModel {
  import opened Common

  datatype FilterOperator = Equal | IsA | DescendentOf | IsNotA | Regex | In | NotIn | Generalizes | Exists

  datatype ConceptSetFilter = ConceptSetFilter(property: Option<string>, op: Option<FilterOperator>, value: Option<string>)

  datatype ConceptReference = ConceptReference(code: Option<string>, display: Option<string>)

  /** A `compose.include` or `compose.exclude` entry. */
  datatype ConceptSet = ConceptSet(
    system: Option<string>,
    version: Option<string>,
    concepts: seq<ConceptReference>,
    filters: seq<ConceptSetFilter>,
    valueSets: seq<Option<string>>)

  datatype Compose = Compose(includes: seq<ConceptSet>, excludes: seq<ConceptSet>)

  datatype ValueSet = ValueSet(url: Option<string>, compose: Compose)

  /** One node of `expansion.contains`, with its nested `contains`. */
  datatype Contains = Contains(system: Option<string>, code: Option<string>, display: Option<string>, contains: seq<Contains>)

  /** An expansion: the optional `total` and the top-level `contains`. */
  datatype Expansion = Expansion(total: Option<int>, contains: seq<Contains>)

  datatype Coding = Coding(system: Option<string>, code: Option<string>, display: Option<string>)

  datatype ValidateCodeResult = ValidateCodeResult(valid: bool, message: string, display: Option<string>)

  datatype RequestError =
    | InvalidRequest(message: string)   // InvalidRequestException
    | InternalError(message: string)    // InternalErrorException

  predicate FilterIsEmpty(f: ConceptSetFilter)
  {
    IsBlank(f.property) && f.op.None? && IsBlank(f.value)
  }

  predicate ConceptIsEmpty(c: ConceptReference)
  {
    IsBlank(c.code) && IsBlank(c.display)
  }

  predicate FiltersEmpty(fs: seq<ConceptSetFilter>)
  {
    forall i :: 0 <= i < |fs| ==> FilterIsEmpty(fs[i])
  }

  predicate ConceptsEmpty(cs: seq<ConceptReference>)
  {
    forall i :: 0 <= i < |cs| ==> ConceptIsEmpty(cs[i])
  }

  predicate ConceptSetIsEmpty(s: ConceptSet)
  {
    && IsBlank(s.system)
    && IsBlank(s.version)
    && ConceptsEmpty(s.concepts)
    && FiltersEmpty(s.filters)
    && (forall i :: 0 <= i < |s.valueSets| ==> IsBlank(s.valueSets[i]))
  }

  predicate ComposeIsEmpty(c: Compose)
  {
    && (forall i :: 0 <= i < |c.includes| ==> ConceptSetIsEmpty(c.includes[i]))
    && (forall i :: 0 <= i < |c.excludes| ==> ConceptSetIsEmpty(c.excludes[i]))
  }

  /** The filter `display = value` the DAO injects. */
  function DisplayFilter(value: string): ConceptSetFilter
  {
    ConceptSetFilter(Some("display"), Some(Equal), Some(value))
  }
}

=== FILE: valueset_validate.dfy ===
/** `$validate-code` against a DSTU3 ValueSet: the argument rules, the
    depth-first search of an expansion's `contains` tree, the display check,
    and the way the value set to validate against is found.

    Reading a ValueSet resource, the two `fetchValueSet` lookups, the code
    system's `lookupCode` and the expansion engine are external; they are the
    fields of `Services`. */
module ValueSetValidate {
  import opened Common
  import opened ValueSetModel
  import opened ValueSetCompose

  const NoArgumentMessage := "No code, coding, or codeableConcept provided to validate"
  const MultipleArgumentMessage := "$validate-code can only validate (system AND code) OR (coding) OR (codeableConcept)"
  const UnknownIdentifierMessage := "Unknown ValueSet identifier: "
  const NothingToValidateMessage := "Either ValueSet ID or ValueSet identifier or system and code must be provided. Unable to validate."
  const SucceededMessage := "Validation succeeded"
  const FoundCodeMessage := "Found code"
  const DisplayMismatchMessage := "Display for code does not match"
  const NotFoundMessage := "Code not found"

  /** A coding is empty when its system, code and display are all blank. */
  predicate CodingIsEmpty(c: Coding)
  {
    IsBlank(c.system) && IsBlank(c.code) && IsBlank(c.display)
  }

  predicate HaveCode(code: Option<string>)
  {
    IsNotBlank(code)
  }

  predicate HaveCoding(coding: Option<Coding>)
  {
    coding.Some? && !CodingIsEmpty(coding.value)
  }

  /** A codeable concept is given by its list of codings; it counts only when
      that list is not empty. */
  predicate HaveConcept(concept: Option<seq<Coding>>)
  {
    concept.Some? && |concept.value| > 0
  }

  /** 1 for true, 0 for false. */
  function Indicator(b: bool): nat
  {
    if b then 1 else 0
  }

  /** How many of the three ways of naming a code the caller used. */
  function Supplied(code: Option<string>, coding: Option<Coding>, concept: Option<seq<Coding>>): nat
  {
    Indicator(HaveCode(code)) + Indicator(HaveCoding(coding)) + Indicator(HaveConcept(concept))
  }

  /** The argument checks of `validateCode`: none of code, coding and
      codeable concept is refused, and so is more than one (`multiXor` read as
      "exactly one is true"). */
  function CheckArguments(code: Option<string>, coding: Option<Coding>, concept: Option<seq<Coding>>): (r: Outcome<RequestError>)
    ensures r.Pass? <==> Supplied(code, coding, concept) == 1
    ensures Supplied(code, coding, concept) == 0 ==> r == Fail(InvalidRequest(NoArgumentMessage))
    ensures Supplied(code, coding, concept) >= 2 ==> r == Fail(InvalidRequest(MultipleArgumentMessage))
  {
    var code? := HaveCode(code);
    var coding? := HaveCoding(coding);
    var concept? := HaveConcept(concept);
    if !concept? && !coding? && !code? then Fail(InvalidRequest(NoArgumentMessage))
    else if !((concept? && !coding? && !code?) || (!concept? && coding? && !code?) || (!concept? && !coding? && code?)) then
      Fail(InvalidRequest(MultipleArgumentMessage))
    else Pass
  }

  /** What a node of the expansion is compared with. */
  datatype Query =
    | ByCode(system: Option<string>, code: string)
    | ByCoding(coding: Coding)
    | ByConcept(codings: seq<Coding>)

  /** The comparison `validateCodeIsInContains` picks: a non-blank code
      first, then a non-null coding, else the codeable concept. */
  function QueryOf(system: Option<string>, code: Option<string>, coding: Option<Coding>, concept: Option<seq<Coding>>): (q: Query)
    requires IsNotBlank(code) || coding.Some? || concept.Some?
    ensures q.ByCode? <==> IsNotBlank(code)
    ensures q.ByCode? ==> q == ByCode(system, code.value)
    ensures q.ByCoding? ==> coding.Some? && q.coding == coding.value
    ensures q.ByConcept? ==> coding.None? && concept.Some? && q.codings == concept.value
  {
    if IsNotBlank(code) then ByCode(system, code.value)
    else if coding.Some? then ByCoding(coding.value)
    else ByConcept(concept.value)
  }

  /** Whether one node of the expansion answers the query. */
  predicate NodeMatches(q: Query, n: Contains)
  {
    match q
    case ByCode(system, code) => n.code == Some(code) && (IsBlank(system) || system == n.system)
    case ByCoding(c) => n.system == c.system && n.code == c.code
    case ByConcept(cs) => exists i :: 0 <= i < |cs| && n.system == cs[i].system && n.code == cs[i].code
  }

  /** The node the search of `validateCodeIsInContains` stops at: each
      entry's descendants are searched before the entry itself, and the
      entries in list order. */
  function Lookup(cs: seq<Contains>, q: Query): (r: Option<Contains>)
    ensures r.Some? ==> NodeMatches(q, r.value)
  {
    if cs == [] then None
    else
      match Lookup(cs[0].contains, q)
      case Some(n) => Some(n)
      case None => if NodeMatches(q, cs[0]) then Some(cs[0]) else Lookup(cs[1..], q)
  }

  /** `validateCodeIsInContains`: a hit is valid and carries the display of
      the node found; no hit is `null`. */
  function ValidateCodeIsInContains(cs: seq<Contains>, q: Query): (r: Option<ValidateCodeResult>)
    ensures r.None? <==> Lookup(cs, q).None?
    ensures r.Some? ==> r.value == ValidateCodeResult(true, SucceededMessage, Lookup(cs, q).value.display)
    ensures r.None? <==> forall i :: 0 <= i < |PostOrder(cs)| ==> !NodeMatches(q, PostOrder(cs)[i])
    ensures r.Some? ==> FirstMatch(PostOrder(cs), q).Some? && r.value.display == FirstMatch(PostOrder(cs), q).value.display
  {
    LookupFindsFirstMatch(cs, q);
    LookupIsFirstPostOrderMatch(cs, q);
    match Lookup(cs, q)
    case None => None
    case Some(n) => Some(ValidateCodeResult(true, SucceededMessage, n.display))
  }

  /** Every node of the tree, each entry's descendants listed before it. */
  function PostOrder(cs: seq<Contains>): seq<Contains>
  {
    if cs == [] then [] else PostOrder(cs[0].contains) + [cs[0]] + PostOrder(cs[1..])
  }

  /** The first element of a list that answers the query. */
  function FirstMatch(xs: seq<Contains>, q: Query): (r: Option<Contains>)
  {
    if xs == [] then None
    else if NodeMatches(q, xs[0]) then Some(xs[0])
    else FirstMatch(xs[1..], q)
  }

  lemma {:induction false} FirstMatchAppend(a: seq<Contains>, b: seq<Contains>, q: Query)
    ensures FirstMatch(a + b, q) == if FirstMatch(a, q).Some? then FirstMatch(a, q) else FirstMatch(b, q)
  {
    if a == [] {
      assert a + b == b;
    } else {
      assert (a + b)[1..] == a[1..] + b;
      FirstMatchAppend(a[1..], b, q);
    }
  }

  /** The search finds exactly the first node in post-order that answers the
      query. */
  lemma {:induction false} LookupIsFirstPostOrderMatch(cs: seq<Contains>, q: Query)
    ensures Lookup(cs, q) == FirstMatch(PostOrder(cs), q)
  {
    if cs != [] {
      LookupIsFirstPostOrderMatch(cs[0].contains, q);
      LookupIsFirstPostOrderMatch(cs[1..], q);
      FirstMatchAppend(PostOrder(cs[0].contains) + [cs[0]], PostOrder(cs[1..]), q);
      FirstMatchAppend(PostOrder(cs[0].contains), [cs[0]], q);
    }
  }

  /** The first match of a list is an element that answers the query with no
      earlier element answering it, and there is none exactly when no element
      answers it. */
  lemma {:induction false} FirstMatchIsFirst(xs: seq<Contains>, q: Query)
    ensures FirstMatch(xs, q).None? <==> forall i :: 0 <= i < |xs| ==> !NodeMatches(q, xs[i])
    ensures FirstMatch(xs, q).Some? ==>
      exists i :: 0 <= i < |xs| && xs[i] == FirstMatch(xs, q).value
        && NodeMatches(q, xs[i]) && forall j :: 0 <= j < i ==> !NodeMatches(q, xs[j])
  {
    if xs != [] {
      FirstMatchIsFirst(xs[1..], q);
      if !NodeMatches(q, xs[0]) {
        if FirstMatch(xs, q).Some? {
          var i :| 0 <= i < |xs[1..]| && xs[1..][i] == FirstMatch(xs, q).value
            && NodeMatches(q, xs[1..][i]) && forall j :: 0 <= j < i ==> !NodeMatches(q, xs[1..][j]);
          assert xs[i + 1] == xs[1..][i];
          forall j | 0 <= j < i + 1
            ensures !NodeMatches(q, xs[j])
          {
            if j > 0 {
              assert xs[j] == xs[1..][j - 1];
            }
          }
        } else {
          forall i | 0 <= i < |xs|
            ensures !NodeMatches(q, xs[i])
          {
            if i > 0 {
              assert xs[i] == xs[1..][i - 1];
            }
          }
        }
      }
    }
  }

  /** The search of a whole tree, stated against its post-order listing: it
      fails exactly when no node answers, and otherwise returns the first
      node that does. */
  lemma LookupFindsFirstMatch(cs: seq<Contains>, q: Query)
    ensures Lookup(cs, q).None? <==> forall i :: 0 <= i < |PostOrder(cs)| ==> !NodeMatches(q, PostOrder(cs)[i])
    ensures Lookup(cs, q).Some? ==>
      exists i :: 0 <= i < |PostOrder(cs)| && PostOrder(cs)[i] == Lookup(cs, q).value
        && forall j :: 0 <= j < i ==> !NodeMatches(q, PostOrder(cs)[j])
  {
    LookupIsFirstPostOrderMatch(cs, q);
    FirstMatchIsFirst(PostOrder(cs), q);
  }

  /** A child that answers the query wins over its parent, even when the
      parent answers too. */
  lemma ChildIsFoundBeforeParent(parent: Contains, child: Contains, q: Query)
    requires parent.contains == [child]
    requires child.contains == []
    requires NodeMatches(q, child)
    ensures Lookup([parent], q) == Some(child)
  {
    assert Lookup(parent.contains, q) == Some(child);
  }

  /** A supplied display is compatible with a found one unless both are
      non-blank and differ. */
  predicate DisplayAgrees(display: Option<string>, found: Option<string>)
  {
    IsBlank(display) || IsBlank(found) || display == found
  }

  /** The display check and the fallback of `validateCode`: no result is
      "Code not found"; a result whose display differs from a non-blank
      supplied display is invalid and carries the result's display; any other
      result is returned as it is. */
  function CheckDisplay(display: Option<string>, result: Option<ValidateCodeResult>): (r: ValidateCodeResult)
    ensures result.None? ==> r == ValidateCodeResult(false, NotFoundMessage, None)
    ensures result.Some? && !DisplayAgrees(display, result.value.display) ==>
      r == ValidateCodeResult(false, DisplayMismatchMessage, result.value.display)
    ensures result.Some? && DisplayAgrees(display, result.value.display) ==> r == result.value
  {
    match result
    case None => ValidateCodeResult(false, NotFoundMessage, None)
    case Some(res) =>
      if display.Some? && IsNotBlank(display) && IsNotBlank(res.display) && display.value != res.display.value then
        ValidateCodeResult(false, DisplayMismatchMessage, res.display)
      else res
  }

  /** The answer of a code system's `lookupCode`. */
  datatype LookupCodeResult = LookupCodeResult(found: bool, display: Option<string>)

  /** The services `validateCode` calls: reading a ValueSet by id, the
      built-in and the general `fetchValueSet`, the code system lookup, and
      the expansion engine. */
  datatype Services = Services(
    read: string -> Result<ValueSet, RequestError>,
    fetchBuiltIn: string -> Option<ValueSet>,
    fetch: string -> Option<ValueSet>,
    lookupCode: (Option<string>, Option<string>) -> Option<LookupCodeResult>,
    engine: Engine)

  /** The value set to validate against: by id, else by identifier (built-in
      first), else none, which sends a non-blank code to the code system. */
  function ResolveValueSet(svc: Services, id: Option<string>, identifier: Option<string>): (r: Result<Option<ValueSet>, RequestError>)
    ensures id.Some? ==> r == (if svc.read(id.value).Ok? then Ok(Some(svc.read(id.value).value)) else Err(svc.read(id.value).error))
    ensures id.None? && IsBlank(identifier) ==> r == Ok(None)
    ensures id.None? && IsNotBlank(identifier) ==>
      (r.Err? <==> svc.fetchBuiltIn(identifier.value).None? && svc.fetch(identifier.value).None?)
    ensures id.None? && r.Err? ==> r.error == InvalidRequest(UnknownIdentifierMessage + identifier.value)
    ensures id.None? && IsNotBlank(identifier) && svc.fetchBuiltIn(identifier.value).Some? ==>
      r == Ok(svc.fetchBuiltIn(identifier.value))
    ensures id.None? && IsNotBlank(identifier) && svc.fetchBuiltIn(identifier.value).None? && svc.fetch(identifier.value).Some? ==>
      r == Ok(svc.fetch(identifier.value))
  {
    if id.Some? then
      match svc.read(id.value)
      case Err(e) => Err(e)
      case Ok(vs) => Ok(Some(vs))
    else if IsNotBlank(identifier) then
      match svc.fetchBuiltIn(identifier.value)
      case Some(vs) => Ok(Some(vs))
      case None =>
        match svc.fetch(identifier.value)
        case None => Err(InvalidRequest(UnknownIdentifierMessage + identifier.value))
        case Some(vs) => Ok(Some(vs))
    else Ok(None)
  }

  /** `validateCode` on the expansion path. */
  function ValidateCode(svc: Services, identifier: Option<string>, id: Option<string>, code: Option<string>,
                        system: Option<string>, display: Option<string>, coding: Option<Coding>,
                        concept: Option<seq<Coding>>): (r: Result<ValidateCodeResult, RequestError>)
    ensures Supplied(code, coding, concept) == 0 ==> r == Err(InvalidRequest(NoArgumentMessage))
    ensures Supplied(code, coding, concept) >= 2 ==> r == Err(InvalidRequest(MultipleArgumentMessage))
    ensures Supplied(code, coding, concept) == 1 && id.None? && IsBlank(identifier) && IsBlank(code) ==>
      r == Err(InvalidRequest(NothingToValidateMessage))
    ensures Supplied(code, coding, concept) == 1 && id.None? && IsBlank(identifier) && IsNotBlank(code) ==>
      r == Ok(if svc.lookupCode(code, system).Some? && svc.lookupCode(code, system).value.found
              then ValidateCodeResult(true, FoundCodeMessage, svc.lookupCode(code, system).value.display)
              else ValidateCodeResult(false, NotFoundMessage, None))
    ensures Supplied(code, coding, concept) == 1 && ResolveValueSet(svc, id, identifier).Err? ==>
      r == Err(ResolveValueSet(svc, id, identifier).error)
    ensures Supplied(code, coding, concept) == 1 && ResolveValueSet(svc, id, identifier).Ok?
            && ResolveValueSet(svc, id, identifier).value.Some?
            && DoExpand(ResolveValueSet(svc, id, identifier).value.value.compose, svc.engine).Err? ==>
      r == Err(DoExpand(ResolveValueSet(svc, id, identifier).value.value.compose, svc.engine).error)
    ensures r.Ok? && r.value.message == DisplayMismatchMessage ==>
      !r.value.valid && !DisplayAgrees(display, r.value.display)
    ensures r.Ok? && r.value.message == SucceededMessage ==>
      r.value.valid && DisplayAgrees(display, r.value.display)
  {
    match CheckArguments(code, coding, concept)
    case Fail(e) => Err(e)
    case Pass =>
      match ResolveValueSet(svc, id, identifier)
      case Err(e) => Err(e)
      case Ok(None) =>
        if IsBlank(code) then Err(InvalidRequest(NothingToValidateMessage))
        else
          var found := svc.lookupCode(code, system);
          if found.Some? && found.value.found then Ok(ValidateCodeResult(true, FoundCodeMessage, found.value.display))
          else Ok(ValidateCodeResult(false, NotFoundMessage, None))
      case Ok(Some(vs)) =>
        match DoExpand(vs.compose, svc.engine)
        case Err(e) => Err(e)
        case Ok(expansion) =>
          var q := QueryOf(system, code, coding, concept);
          Ok(CheckDisplay(display, ValidateCodeIsInContains(expansion.contains, q)))
  }

  /** Validating against a value set: a valid answer names a node of the
      expansion that answers the query and has a compatible display; an
      invalid one either found no such node or found one whose display
      differs. */
  lemma ValidateCodeAgainstValueSet(svc: Services, identifier: Option<string>, id: Option<string>, code: Option<string>,
                                    system: Option<string>, display: Option<string>, coding: Option<Coding>,
                                    concept: Option<seq<Coding>>, vs: ValueSet)
    requires Supplied(code, coding, concept) == 1
    requires ResolveValueSet(svc, id, identifier) == Ok(Some(vs))
    requires DoExpand(vs.compose, svc.engine).Ok?
    ensures var r := ValidateCode(svc, identifier, id, code, system, display, coding, concept);
      var cs := svc.engine(vs.compose).value.contains;
      var q := QueryOf(system, code, coding, concept);
      && r.Ok?
      && (r.value.valid <==> Lookup(cs, q).Some? && DisplayAgrees(display, Lookup(cs, q).value.display))
      && (r.value.message == NotFoundMessage <==>
           forall i :: 0 <= i < |PostOrder(cs)| ==> !NodeMatches(q, PostOrder(cs)[i]))
    ensures var r := ValidateCode(svc, identifier, id, code, system, display, coding, concept);
      var cs := svc.engine(vs.compose).value.contains;
      var q := QueryOf(system, code, coding, concept);
      && (Lookup(cs, q).None? ==> r == Ok(ValidateCodeResult(false, NotFoundMessage, None)))
      && (Lookup(cs, q).Some? && !DisplayAgrees(display, Lookup(cs, q).value.display) ==>
           r == Ok(ValidateCodeResult(false, DisplayMismatchMessage, Lookup(cs, q).value.display)))
      && (Lookup(cs, q).Some? && DisplayAgrees(display, Lookup(cs, q).value.display) ==>
           r == Ok(ValidateCodeResult(true, SucceededMessage, Lookup(cs, q).value.display)))
  {
    var cs := svc.engine(vs.compose).value.contains;
    var q := QueryOf(system, code, coding, concept);
    assert ValidateCode(svc, identifier, id, code, system, display, coding, concept)
        == Ok(CheckDisplay(display, ValidateCodeIsInContains(cs, q)));
    LookupFindsFirstMatch(cs, q);
  }

  /** An empty coding passes the argument check beside a codeable concept,
      but the search still compares nodes with that empty coding rather than
      with the concept's codings. */
  lemma EmptyCodingShadowsConcept(system: Option<string>, code: Option<string>, coding: Coding, codings: seq<Coding>)
    requires IsBlank(code) && CodingIsEmpty(coding) && |codings| > 0
    ensures CheckArguments(code, Some(coding), Some(codings)).Pass?
    ensures QueryOf(system, code, Some(coding), Some(codings)) == ByCoding(coding)
  {
  }
}
